=== FILE: README.md ===
# Hospital appointment booking: a Dafny model

The system is a small Express/Redis service for a hospital:

- doctors are registered with their working hours;
- patients are registered;
- appointments are reserved as date-times against a doctor's working hours.

This project models the controller handlers as atomic transitions over a Redis keyspace. Each transition takes a store and a request and returns an outcome (an HTTP status with its body) and the next store. The project then proves the properties the handlers promise.

- `Store` (store.dfy) models the keyspace as a map from key to a hash, a set or a string.
  - Each Redis command the handlers use is a pure function that returns its reply and the next store. The commands are EXISTS, HGETALL, SISMEMBER, SMEMBERS, KEYS, HSET, SADD, SREM and DEL. These functions define the Redis behaviour the model assumes. The laws that link one command to another (a read after a write) are proved as lemmas.
  - A command applied to a key of the wrong type fails with WRONGTYPE, which every handler turns into its catch-all 500.
  - Redis never keeps an empty hash or set: SREM of the last member deletes the key. `WellFormed` captures this, and every handler preserves it.
- `KeyLayout` (keys.dfy) builds keys as `doctor:<id>`, `workingHours:<id>`, `reservations:<id>`, `doctorReservations:<id>`, `patient:<id>` and `patientReservations:<id>`. It proves that a key determines its namespace and its id. `Text` (text.dfy) models JavaScript's `split`, `toString` of integers up to 2^53 in magnitude, and its inverse.
- `Reservations` (reservations.dfy) is the reservation engine. A reservation is a raw date-time string in the set `reservations:<doctorId>`. Reserving checks three things in order and stops at the first failure:
  1. the doctor exists;
  2. the slot is not already reserved;
  3. the time of day (the second space-separated token) is one of the doctor's working hours.
  
  Only then does it add the date-time. Removing is the inverse.
- `Doctors`, `Patients` and `LegacyDoctors` are the directories (controllers/doctors.js, controllers/patients.js and the earlier controllers.js). Each models validation where the handler has it, creation, lookup, deletion (with the doctor cascade) and the listings.
- `Listing` holds the loop that the listing handlers share.
- `Booking` gathers all writing handlers into one command type. It proves facts that hold across handlers, and one end-to-end run of a doctor's life.

Request values that may be missing from the body are `Option`s. `None` stands for JavaScript's `undefined`. Truthiness is modelled: `""` and the age `0` are falsy. When a handler throws before its `try` (`dateTime.split` on a missing date-time, `workingHours.length` on missing hours), no reply is sent. The model gives these the outcome `Unhandled`.

## Model

| member | source | states |
|---|---|---|
| Reservations.TimeOfDayOfDateAndTime | controllers/reservations.js:5-29 | For `<date> <time>` with no space inside either part, the checked token is exactly `<time>` ("2024-01-01 09:00" gives "09:00") |
| Reservations.Reserve | controllers/reservations.js:3-57 | A missing date-time throws before any reply. An unknown doctor gives 404. A reserved date-time gives 409 "already reserved" whether or not it is within hours. An unreserved date-time outside the hours gives 409 "not available". Success happens exactly when the doctor exists, the slot is free and the time is within hours; it adds exactly that date-time and leaves every other key as it was. The catch-all 500 happens exactly when a store read fails or the date-time has no time part. No other status is sent, and the "reserved by another user" 409 never occurs. Every non-200 outcome leaves the store unchanged |
| Reservations.Remove | controllers/reservations.js:59-88 | An unknown doctor gives 404 and an unreserved date-time gives 409. Success happens exactly when the date-time is reserved, and removes exactly it (the key goes when the set empties). The catch-all 500 happens exactly when the date-time is missing or the reservations key holds another type. No other status is sent. Failures leave the store unchanged |
| Reservations.ReserveTwice | controllers/reservations.js:21-27 | After a successful reservation, the same request is refused as already reserved and changes nothing |
| Reservations.ReserveThenRemove | controllers/reservations.js:39-84 | Reserving then removing the same date-time succeeds and restores the store exactly |
| Reservations.ReserveRemoveReserve | controllers/reservations.js:39-84 | After reserve and remove, reserving again succeeds and reaches the same store as the first reservation |
| Reservations.RemoveTwice | controllers/reservations.js:73-80 | After a successful removal, removing again gives 409 "not reserved" and changes nothing |
| Reservations.Run | controllers/reservations.js:3-57 | A run of reservation requests passes through one store per request, each the result of the previous request |
| Reservations.ReserveOnlyGrows | controllers/reservations.js:39 | Reserving never deletes a key and never un-reserves a date-time |
| Reservations.RunOnlyGrows | controllers/reservations.js:39 | Along any run of reservations, keys and reserved date-times persist |
| Reservations.RunBooksSlotOnce | controllers/reservations.js:21-27 | In any run, two requests for the same doctor and date-time never both succeed |
| Reservations.RepeatedRequestsBookOnce | controllers/reservations.js:21-27 | When the first of N identical requests succeeds, every later one gets 409 "already reserved" |
| Doctors.AddDoctor | controllers/doctors.js:4-48 | A falsy name or specialization, or empty hours, gives 400. Missing hours (after name and specialization pass) throw before any reply. Otherwise the result is 200 and never 500, and the store gains exactly `doctor:<id>` = {id, name, specialization} and `workingHours:<id>` = the hours as a set. Any refusal leaves the store unchanged |
| Doctors.GetDoctor | controllers/doctors.js:71-92 | 404 exactly when `doctor:<id>` is absent. 200 exactly when the hash and the working-hours set can be read, with the hash fields and the hours as `workingHours`. 500 exactly when one of the two reads fails |
| Doctors.DeleteDoctor | controllers/doctors.js:94-136 | An absent doctor gives 404 and no change. Otherwise the store loses exactly the doctor, working hours and reservations keys. The reply is 500 exactly when the working-hours set was missing, even though the deletions took effect |
| Doctors.CollectDoctors | controllers/doctors.js:55-62 | Every listed key once, each entry being the key's hash spread with the working hours read under the id that `key.split(":")[1]` gives; fails exactly when one of them is unreadable |
| Doctors.GetDoctors | controllers/doctors.js:50-69 | One entry per `doctor:*` key: the key's hash spread with the working hours of the id up to its first colon. For a doctor id without a colon, each entry is what a lookup of that doctor replies |
| Doctors.GetDoctorReservations | controllers/doctors.js:138-164 | 404 for an unknown doctor. Otherwise one record per member of `doctorReservations:<id>`, namely the hash stored under that member, or 500 exactly when the index or one of those hashes cannot be read |
| Doctors.AddThenGet | controllers/doctors.js:21-30 | A new doctor reads back with the given name and specialization and the given hours as a set |
| Doctors.GetCreatedDoctor | controllers/doctors.js:85-88 | A lookup right after writing a doctor's hash and hours returns them |
| Doctors.AddThenDelete | controllers/doctors.js:112-132 | When no `reservations:<id>` key exists for the new id, adding a doctor and deleting it succeeds and restores the store exactly |
| Doctors.DeleteCascadeScope | controllers/doctors.js:112-120 | Deletion removes that doctor's record, hours and reservations. Every other key keeps its value, including the doctor's `doctorReservations` set and all patient data |
| Patients.AddPatient | controllers/patients.js:4-32 | A falsy name, age (0 included) or address gives 400 and no change. Otherwise 200 whenever the key holds a hash or nothing, and 500 with no change when it holds another type; on 200 the hash gains {id, name, age as a decimal string, address} |
| Patients.GetPatient | controllers/patients.js:50-66 | 404 exactly when the hash is empty or lacks a truthy `id`. Otherwise the stored hash, or 500 on a key of another type |
| Patients.DeletePatient | controllers/patients.js:68-88 | 404 when absent. Otherwise the store loses `patient:<id>` and nothing else |
| Patients.GetPatients | controllers/patients.js:34-48 | One record per `patient:*` key, each being that key's hash |
| Patients.GetPatientReservations | controllers/patients.js:90-117 | 404 for an unknown patient. Otherwise one record per member of `patientReservations:<id>`, or 500 exactly when the index or one of those hashes cannot be read |
| Patients.AgeZeroRefused | controllers/patients.js:7-9 | A patient of age 0 is refused with 400 and no change |
| Patients.AddThenGet | controllers/patients.js:12-28 | A new patient reads back with the given name and address, and with an age string that parses back to the given age |
| Patients.GetStoredPatient | controllers/patients.js:55-62 | A hash with a truthy `id` is returned as it is |
| Patients.AddThenDelete | controllers/patients.js:15-84 | Adding a patient under an unused id and deleting it restores the store |
| Patients.DeleteScope | controllers/patients.js:73-84 | No cascade: every key except `patient:<id>` keeps its value |
| Listing.CollectHashes | controllers/patients.js:39-42 | Every key of the listing once, with the records lined up with that order; fails exactly when some key is not a hash |
| LegacyDoctors.AddDoctor | controllers.js:11-27 | No validation: name and specialization overwrite those two fields of `doctor:<id>` and keep the others. An undefined value gives 500 and no change |
| LegacyDoctors.GetDoctor | controllers.js:29-44 | 404 exactly when absent, 500 exactly when the key holds something other than a hash, and otherwise the stored hash, with no working hours |
| LegacyDoctors.DeleteDoctor | controllers.js:46-63 | 404 exactly when absent. The store loses `doctor:<id>` only |
| LegacyDoctors.GetDoctors | controllers.js:65-79 | One record per `doctor:*` key |
| LegacyDoctors.AddThenGet | controllers.js:15-40 | A lookup after an add reads the new name and specialization and the record's other fields unchanged |
| LegacyDoctors.DeleteScope | controllers.js:55 | Working hours and reservations are not cascaded: every key but `doctor:<id>` keeps its value |
| Booking.ApplyKeepsWellFormed | controllers/reservations.js:39-80 | No handler leaves an empty hash or set in the store |
| Booking.FailuresDoNotWrite | controllers/doctors.js:7-9 | Every handler's refusal leaves the store unchanged. The one exception is deleteDoctor's 500 after the transaction |
| Booking.IndexesNeverWritten | controllers/doctors.js:152 | No handler writes `doctorReservations:<id>` or `patientReservations:<id>` |
| Booking.ReserveIgnoresPatients | controllers/reservations.js:3-57 | Reservation outcomes do not depend on any patient record |
| Booking.DoctorLifecycle | controllers/reservations.js:3-57 | A newly registered doctor is booked within hours. The same slot is then refused as already reserved and an off-hours slot as not available. The doctor is then deleted with the reservations, and afterwards reserving gives 404 |
| KeyLayout.KeyInjective | controllers/doctors.js:14-15 | Two keys are equal exactly when namespace and id are equal |
| KeyLayout.KeyIdOf | controllers/doctors.js:58 | `key.split(":")[1]` of `<namespace>:<id>` is the id up to its first colon, and the id itself when the id has no colon |
| Text.SplitJoin | controllers/reservations.js:5 | Splitting, on a one-character separator, a join of parts that do not contain it gives the parts back |
| Text.IntToStringRoundTrip | controllers/patients.js:21 | The decimal rendering of an integer age parses back to it |
| Store.SAddThenSRem | controllers/reservations.js:39-80 | Adding a new member to a set and removing it restores the store, given that no empty set is stored |
| Store.HSetThenHGetAll | controllers/patients.js:15-24 | After HSET, HGETALL of the key reads the old fields overwritten by the new ones, and HGETALL of every other key is unchanged |
| Store.SAddThenRead | controllers/reservations.js:39 | After SADD, SISMEMBER holds exactly for the members that were there and the added ones, and SMEMBERS reads their union |
| Store.SRemThenRead | controllers/reservations.js:80 | After SREM, SISMEMBER is false for the removed member and unchanged for every other one, and SMEMBERS reads the old set without it |
| Store.DelThenExists | controllers/doctors.js:112-117 | After DEL, EXISTS is false for the key and unchanged for every other key; DEL replies 1 exactly when EXISTS held before |
| Store.StarMatchesAll | controllers/doctors.js:52 | The KEYS pattern `*` matches every key |
| Store.PrefixPatternMatches | controllers/doctors.js:52 | The KEYS pattern `<prefix>*` matches a key exactly when the key starts with the prefix, for a prefix without `*` |
| Store.KeysOfPrefixPattern | controllers/patients.js:36 | KEYS `<prefix>*` lists exactly the stored keys that start with the prefix |
| KeyLayout.KeysOfNamespace | controllers.js:67 | KEYS `doctor:*` (or `patient:*`) lists exactly the keys of that namespace |
| Doctors.CreateDoctorKeys | controllers/doctors.js:21-36 | On unused keys, the HSET and SADD of a new doctor both succeed, both reply a positive count (so `results.includes(0)` is false), and leave the store with exactly the two new keys |
| Booking.ApplyWritesOnly | controllers/reservations.js:39 | Each request changes no key outside its own: the two keys of a new doctor, the three of a deleted one, the patient key, the doctor's reservations key, or the legacy doctor key |
| Booking.ReserveReadsOnly | controllers/reservations.js:12-29 | The outcome of a reservation depends only on the doctor's record, reservations and working hours |
| Doctors.ListedHoursKey | controllers/doctors.js:58-60 | For a key matched by `doctor:*`, `key.split(":")[1]` is defined, so the listing reads the working hours of the id up to its first colon and never the "undefined" key |

## Left out

- HTTP wiring (index.js, routes.js, routes/*.js and `res.status().json()`) is not part of this model. Replies are the `Outcome` datatype. The router in routes.js imports reservation handlers that controllers.js does not export, so it is dead.
- Redis client creation and connection (controllers.js:1-9, redisClient.js) are not part of this model. The store is a value passed in and returned.
- WATCH/MULTI/EXEC concurrency is not modelled: each handler is one atomic step. Interleavings and aborted transactions cannot be expressed in a sequential model. So a null `exec` reply never occurs, and the 409 "reserved by another user" is proved unreachable.
- Doctors.AddDoctor: the generated uuid is a parameter, and the requirement that neither of its keys exists stands for the uuid's freshness.
- Patients.AddPatient: the uuid is a parameter with no freshness requirement. The model covers an HSET merge into any existing hash.
- Patients.AgeText: the age is an integer or a string. Fractional numbers and JavaScript's exponent notation for numbers of 1e21 and above are not modelled. Integers above 2^53 in magnitude are written with all their digits, whereas JavaScript prints the shortest digits that read back to the same double, padded with zeros (2**55 gives "36028797018963970").
- Doctors.AddDoctor: `workingHours` is modelled as an array of strings. A non-array value with a `length` (a string, say) is not modelled.
- Doctors.AddDoctor: a JSON `null` field is treated as `undefined`. The two behave the same under the truthiness checks, but a null `workingHours` makes the handler throw exactly as a missing one does.
- An undefined `doctorId` or `id` in a request body renders as "undefined" inside the key. The model takes the id as a string, so a caller passes "undefined" for that case.
- Request fields are modelled as strings, or absent, and `age` as an integer or a string. Other JSON types are not modelled. For example, a numeric `dateTime` makes `dateTime.split` throw at controllers/reservations.js:5, and a boolean `name` passes the truthiness check but the client rejects it, giving 500.
- `Unhandled` means no reply is sent. That assumes Express 4, which ignores the rejected promise of an async handler. On Node 15 and later the unhandled rejection also ends the process, which the model does not represent.
- The KEYS glob matcher handles literal characters and `*` only. Redis's `?`, `[...]` classes and `\` escapes are not modelled, and no handler's pattern uses them.
- Console logging in the patient-reservations catch is left out.
- Reservation-id lookups and writes of `doctorReservations:` and `patientReservations:` are performed by no handler, so none is invented. `Booking.IndexesNeverWritten` states that these sets only change from outside.
- A reservation is a raw date-time string in `reservations:<doctorId>`. There is no reservation record, no reservation id and no patient link, and reserving never reads a patient (`Booking.ReserveIgnoresPatients`).
- Store failures other than WRONGTYPE (connection loss, timeouts) are not modelled. The catch-all 500 of each handler is reached only through WRONGTYPE or an undefined argument. The client library rejects an undefined argument inside the `try`, and the model assumes it does.
- Doctors.GetDoctors: the entry equals a lookup's reply only for ids without a colon. With a colon in the id, `split(":")[1]` reads the working hours of the id's first segment; the contract states that key.

=== FILE: booking.dfy ===
/** The handlers together, over one shared store: every request that writes
    as one atomic transition, and the facts that hold across handlers. */
module Booking {
  import opened Wrappers
  import opened Store
  import opened KeyLayout
  import opened Http
  import Reservations
  import Doctors
  import Patients
  import LegacyDoctors

  /** The requests that write to the store. */
  datatype Command =
    | AddDoctor(freshId: string, name: Option<string>, specialization: Option<string>, workingHours: Option<seq<string>>)
    | DeleteDoctor(doctorId: string)
    | AddPatient(newId: string, patientName: Option<string>, age: Option<Patients.Age>, address: Option<string>)
    | DeletePatient(patientId: string)
    | Reserve(reserveDoctor: string, reserveAt: Option<string>)
    | RemoveReservation(removeDoctor: string, removeAt: Option<string>)
    | LegacyAddDoctor(legacyId: string, legacyName: Option<string>, legacySpecialization: Option<string>)
    | LegacyDeleteDoctor(legacyDeleteId: string)

  /** The generated id of a new doctor names nothing yet. */
  predicate Admissible(ks: Keyspace, cmd: Command) {
    cmd.AddDoctor? ==> DoctorKey(cmd.freshId) !in ks && WorkingHoursKey(cmd.freshId) !in ks
  }

  function Apply(ks: Keyspace, cmd: Command): Step
    requires Admissible(ks, cmd)
  {
    match cmd
    case AddDoctor(id, name, specialization, hours) => Doctors.AddDoctor(ks, id, name, specialization, hours)
    case DeleteDoctor(id) => Doctors.DeleteDoctor(ks, id)
    case AddPatient(id, name, age, address) => Patients.AddPatient(ks, id, name, age, address)
    case DeletePatient(id) => Patients.DeletePatient(ks, id)
    case Reserve(id, at) => Reservations.Reserve(ks, id, at)
    case RemoveReservation(id, at) => Reservations.Remove(ks, id, at)
    case LegacyAddDoctor(id, name, specialization) => LegacyDoctors.AddDoctor(ks, id, name, specialization)
    case LegacyDeleteDoctor(id) => LegacyDoctors.DeleteDoctor(ks, id)
  }

  /** No handler leaves an empty hash or set behind. */
  lemma ApplyKeepsWellFormed(ks: Keyspace, cmd: Command)
    requires WellFormed(ks) && Admissible(ks, cmd)
    ensures WellFormed(Apply(ks, cmd).after)
  {
  }

  /** Only a successful request writes: every refusal leaves the store as it
      was, except the doctor deletion whose transaction reports a failure
      after taking effect. */
  lemma FailuresDoNotWrite(ks: Keyspace, cmd: Command)
    requires Admissible(ks, cmd)
    requires StatusOf(Apply(ks, cmd).out) != OK
    requires !(cmd.DeleteDoctor? && StatusOf(Apply(ks, cmd).out) == ServerError)
    ensures Apply(ks, cmd).after == ks
  {
  }

  /** The keys a request may write. */
  function Written(cmd: Command): set<string> {
    match cmd
    case AddDoctor(id, _, _, _) => {DoctorKey(id), WorkingHoursKey(id)}
    case DeleteDoctor(id) => Doctors.DoctorKeys(id)
    case AddPatient(id, _, _, _) => {PatientKey(id)}
    case DeletePatient(id) => {PatientKey(id)}
    case Reserve(id, _) => {ReservationsKey(id)}
    case RemoveReservation(id, _) => {ReservationsKey(id)}
    case LegacyAddDoctor(id, _, _) => {DoctorKey(id)}
    case LegacyDeleteDoctor(id) => {DoctorKey(id)}
  }

  /** `k` is in `after` exactly as it was in `ks`. */
  predicate Untouched(ks: Keyspace, after: Keyspace, k: string) {
    (k in after <==> k in ks) && (k in ks ==> after[k] == ks[k])
  }

  /** Every request leaves every key outside its own keys as it was. */
  lemma ApplyWritesOnly(ks: Keyspace, cmd: Command, k: string)
    requires Admissible(ks, cmd) && k !in Written(cmd)
    ensures Untouched(ks, Apply(ks, cmd).after, k)
  {
    match cmd
    case Reserve(x, at) => ReserveWritesOnlyReservations(ks, x, at, k);
    case RemoveReservation(x, at) => RemoveWritesOnlyReservations(ks, x, at, k);
    case _ =>
  }

  /** Reserving writes the doctor's reservations key and no other. */
  lemma ReserveWritesOnlyReservations(ks: Keyspace, doctorId: string, at: Option<string>, k: string)
    requires k != ReservationsKey(doctorId)
    ensures Untouched(ks, Reservations.Reserve(ks, doctorId, at).after, k)
  {
  }

  /** Removing a reservation writes the doctor's reservations key and no
      other. */
  lemma RemoveWritesOnlyReservations(ks: Keyspace, doctorId: string, at: Option<string>, k: string)
    requires k != ReservationsKey(doctorId)
    ensures Untouched(ks, Reservations.Remove(ks, doctorId, at).after, k)
  {
  }

  /** No handler writes the reservation indexes `doctorReservations:<id>`
      and `patientReservations:<id>`: what the reservation listings read
      only data from outside these handlers can have put there. */
  lemma IndexesNeverWritten(ks: Keyspace, cmd: Command, n: Namespace, id: string)
    requires Admissible(ks, cmd)
    requires n == DoctorReservations || n == PatientReservations
    ensures Untouched(ks, Apply(ks, cmd).after, KeyOf(n, id))
  {
    var k := KeyOf(n, id);
    assert k !in Written(cmd) by {
      match cmd
      case AddDoctor(x, _, _, _) =>
        KeyInjective(n, id, Doctor, x);
        KeyInjective(n, id, WorkingHours, x);
      case DeleteDoctor(x) =>
        KeyInjective(n, id, Doctor, x);
        KeyInjective(n, id, WorkingHours, x);
        KeyInjective(n, id, Reservations, x);
      case AddPatient(x, _, _, _) =>
        KeyInjective(n, id, Patient, x);
      case DeletePatient(x) =>
        KeyInjective(n, id, Patient, x);
      case Reserve(x, _) =>
        KeyInjective(n, id, Reservations, x);
      case RemoveReservation(x, _) =>
        KeyInjective(n, id, Reservations, x);
      case LegacyAddDoctor(x, _, _) =>
        KeyInjective(n, id, Doctor, x);
      case LegacyDeleteDoctor(x) =>
        KeyInjective(n, id, Doctor, x);
    }
    ApplyWritesOnly(ks, cmd, k);
  }

  /** Reserving never consults a patient: removing any patient's record
      changes no reservation outcome. */
  lemma ReserveIgnoresPatients(ks: Keyspace, patientId: string, doctorId: string, dateTime: Option<string>)
    ensures Reservations.Reserve(ks - {PatientKey(patientId)}, doctorId, dateTime).out
            == Reservations.Reserve(ks, doctorId, dateTime).out
  {
    var without := ks - {PatientKey(patientId)};
    KeyInjective(Patient, patientId, Doctor, doctorId);
    KeyInjective(Patient, patientId, Reservations, doctorId);
    KeyInjective(Patient, patientId, WorkingHours, doctorId);
    ReserveReadsOnly(ks, without, doctorId, dateTime);
  }

  /** A reservation's outcome depends only on the doctor's record,
      reservations and working hours. */
  lemma ReserveReadsOnly(ks: Keyspace, other: Keyspace, doctorId: string, dateTime: Option<string>)
    requires Untouched(ks, other, DoctorKey(doctorId))
    requires Untouched(ks, other, ReservationsKey(doctorId))
    requires Untouched(ks, other, WorkingHoursKey(doctorId))
    ensures Reservations.Reserve(other, doctorId, dateTime).out == Reservations.Reserve(ks, doctorId, dateTime).out
  {
  }

  /** A doctor's life: registered with working hours, booked in one of them,
      refused the same slot again and a slot outside the hours, deleted with
      the cascade, and then unknown to the engine. */
  lemma DoctorLifecycle(ks: Keyspace, id: string, name: string, specialization: string, hours: seq<string>,
                        date: string, time: string, offHours: string)
    requires DoctorKey(id) !in ks && WorkingHoursKey(id) !in ks && ReservationsKey(id) !in ks
    requires Doctors.Complete(Some(name), Some(specialization), Some(hours))
    requires time in hours && offHours !in hours
    requires ' ' !in date && ' ' !in time && ' ' !in offHours
    ensures var registered := Doctors.AddDoctor(ks, id, Some(name), Some(specialization), Some(hours)).after;
            var booked := Reservations.Reserve(registered, id, Some(date + " " + time));
            && Reservations.Succeeds(booked)
            && booked.after[ReservationsKey(id)] == SetValue({date + " " + time})
            && Reservations.Reserve(booked.after, id, Some(date + " " + time)).out
               == Fail(Conflict, Reservations.AlreadyReserved)
            && Reservations.Reserve(booked.after, id, Some(date + " " + offHours)).out
               == Fail(Conflict, Reservations.NotAvailable)
            && var deleted := Doctors.DeleteDoctor(booked.after, id);
               && StatusOf(deleted.out) == OK
               && ReservationsKey(id) !in deleted.after
               && StatusOf(Reservations.Reserve(deleted.after, id, Some(date + " " + time)).out) == NotFound
  {
    var hourSet := set h | h in hours;
    var registered := Doctors.AddDoctor(ks, id, Some(name), Some(specialization), Some(hours)).after;
    Registered(ks, id, name, specialization, hours);
    Reservations.TimeOfDayOfDateAndTime(date, time);
    Reservations.TimeOfDayOfDateAndTime(date, offHours);
    BookFirstSlot(registered, id, date + " " + time, hourSet);
    var booked := Reservations.Reserve(registered, id, Some(date + " " + time));
    Reservations.ReserveTwice(registered, id, date + " " + time);
    RefuseOffHours(registered, id, date + " " + time, date + " " + offHours, hourSet);
    DeleteBookedDoctor(booked.after, id, date + " " + time);
  }

  /** The store right after a doctor is registered. */
  lemma Registered(ks: Keyspace, id: string, name: string, specialization: string, hours: seq<string>)
    requires DoctorKey(id) !in ks && WorkingHoursKey(id) !in ks && ReservationsKey(id) !in ks
    requires Doctors.Complete(Some(name), Some(specialization), Some(hours))
    ensures var registered := Doctors.AddDoctor(ks, id, Some(name), Some(specialization), Some(hours)).after;
            && DoctorKey(id) in registered
            && WorkingHoursKey(id) in registered && registered[WorkingHoursKey(id)] == SetValue(set h | h in hours)
            && ReservationsKey(id) !in registered
  {
    KeyInjective(Doctor, id, WorkingHours, id);
    KeyInjective(Doctor, id, Reservations, id);
    KeyInjective(WorkingHours, id, Reservations, id);
  }

  /** The first reservation of a doctor within the working hours creates the
      reservation set with that one date-time. */
  lemma BookFirstSlot(st: Keyspace, id: string, dateTime: string, hourSet: set<string>)
    requires DoctorKey(id) in st && ReservationsKey(id) !in st
    requires WorkingHoursKey(id) in st && st[WorkingHoursKey(id)] == SetValue(hourSet)
    requires Reservations.TimeOfDay(dateTime).Some? && Reservations.TimeOfDay(dateTime).value in hourSet
    ensures var booked := Reservations.Reserve(st, id, Some(dateTime));
            Reservations.Succeeds(booked) && booked.after == st[ReservationsKey(id) := SetValue({dateTime})]
  {
    assert {} + {dateTime} == {dateTime};
  }

  /** After the first booking, a date-time outside the hours is refused. */
  lemma RefuseOffHours(st: Keyspace, id: string, booked: string, other: string, hourSet: set<string>)
    requires DoctorKey(id) in st && ReservationsKey(id) !in st
    requires WorkingHoursKey(id) in st && st[WorkingHoursKey(id)] == SetValue(hourSet)
    requires Reservations.TimeOfDay(other).Some? && Reservations.TimeOfDay(other).value !in hourSet
    requires other != booked
    ensures Reservations.Reserve(st[ReservationsKey(id) := SetValue({booked})], id, Some(other)).out
            == Fail(Conflict, Reservations.NotAvailable)
  {
    KeyInjective(Doctor, id, Reservations, id);
    KeyInjective(WorkingHours, id, Reservations, id);
  }

  /** Deleting a doctor with a reservation removes the reservations, and the
      engine no longer knows the doctor. */
  lemma DeleteBookedDoctor(st: Keyspace, id: string, dateTime: string)
    requires DoctorKey(id) in st && WorkingHoursKey(id) in st
    ensures var deleted := Doctors.DeleteDoctor(st, id);
            && StatusOf(deleted.out) == OK
            && ReservationsKey(id) !in deleted.after
            && StatusOf(Reservations.Reserve(deleted.after, id, Some(dateTime)).out) == NotFound
  {
  }
}

=== FILE: doctors.dfy ===
/** The doctor directory (controllers/doctors.js): a doctor is the hash
    `doctor:<id>` with fields id, name and specialization, plus the set
    `workingHours:<id>` of time-of-day tokens. Deleting a doctor also deletes
    the working hours and the doctor's reservations. */
module Doctors {
  import opened Wrappers
  import opened Text
  import opened Store
  import opened KeyLayout
  import opened Http
  import opened Listing

  const MissingDetails := "Some details are missing."
  const CreationError := "Error during creation. Please try again."
  const ListError := "Error getting doctors."
  const GetError := "Error getting doctor."
  const DeletionError := "Error during deletion. Please try again."
  const ReservationsError := "Error getting doctor reservations."

  function NotFoundMessage(id: string): string {
    "Doctor with id " + id + " not found."
  }

  /** The hash written for a new doctor. */
  function DoctorRecord(id: string, name: string, specialization: string): map<string, string> {
    map["id" := id, "name" := name, "specialization" := specialization]
  }

  /** The request passes the handler's presence check
      `!name || !specialization || !workingHours.length`. */
  predicate Complete(name: Option<string>, specialization: Option<string>, workingHours: Option<seq<string>>) {
    Truthy(name) && Truthy(specialization) && workingHours.Some? && |workingHours.value| > 0
  }

  /** `addDoctor` with `freshId` standing for the generated uuid, which names
      no doctor and no working hours yet. The presence check evaluates
      `workingHours.length` only after name and specialization pass; a
      missing `workingHours` then throws before the `try`. */
  function AddDoctor(ks: Keyspace, freshId: string, name: Option<string>, specialization: Option<string>,
                     workingHours: Option<seq<string>>): (r: Step)
    requires DoctorKey(freshId) !in ks && WorkingHoursKey(freshId) !in ks
    ensures StatusOf(r.out) == BadRequest <==>
              !Truthy(name) || !Truthy(specialization) || (workingHours.Some? && |workingHours.value| == 0)
    ensures r.out.Unhandled? <==> Truthy(name) && Truthy(specialization) && workingHours.None?
    ensures StatusOf(r.out) == OK <==> Complete(name, specialization, workingHours)
    ensures StatusOf(r.out) != ServerError
    ensures StatusOf(r.out) == OK ==>
              r.after == ks[DoctorKey(freshId) := HashValue(DoctorRecord(freshId, name.value, specialization.value))]
                           [WorkingHoursKey(freshId) := SetValue(set h | h in workingHours.value)]
    ensures StatusOf(r.out) != OK ==> r.after == ks
    ensures WellFormed(ks) ==> WellFormed(r.after)
  {
    if !Truthy(name) || !Truthy(specialization) then Step(Fail(BadRequest, MissingDetails), ks)
    else match workingHours
      case None => Step(Unhandled, ks)
      case Some(hours) =>
        if |hours| == 0 then Step(Fail(BadRequest, MissingDetails), ks)
        else
          var record := DoctorRecord(freshId, name.value, specialization.value);
          var hourSet := set h | h in hours;
          assert "id" in record && hours[0] in hourSet;
          CreateDoctorKeys(ks, freshId, record, hourSet);
          assert WellFormed(ks) ==> WellFormed(ks[DoctorKey(freshId) := HashValue(record)][WorkingHoursKey(freshId) := SetValue(hourSet)]) by {
            if WellFormed(ks) { CreatedWellFormed(ks, freshId, record, hourSet); }
          }
          // one MULTI ... EXEC: HSET then SADD; neither can fail on the
          // fresh keys, so the catch-all "Error adding doctor." is unreachable
          var w1 := HSet(ks, DoctorKey(freshId), record).value;
          var w2 := SAdd(w1.after, WorkingHoursKey(freshId), hourSet).value;
          // `results.includes(0)`
          if w1.reply == 0 || w2.reply == 0 then Step(Fail(ServerError, CreationError), w2.after)
          else Step(Reply(OK, Message("Doctor with id: " + freshId + " added successfully!")), w2.after)
  }

  /** The two writes of a new doctor into unused keys: HSET creates the
      hash, SADD creates the set, both count something new, and the result
      is the store with exactly those two keys added. */
  lemma CreateDoctorKeys(ks: Keyspace, id: string, record: map<string, string>, hours: set<string>)
    requires DoctorKey(id) !in ks && WorkingHoursKey(id) !in ks
    requires "id" in record && hours != {}
    ensures HSet(ks, DoctorKey(id), record).Ok? && HSet(ks, DoctorKey(id), record).value.reply > 0
    ensures var w1 := HSet(ks, DoctorKey(id), record).value;
            && SAdd(w1.after, WorkingHoursKey(id), hours).Ok?
            && SAdd(w1.after, WorkingHoursKey(id), hours).value.reply > 0
            && SAdd(w1.after, WorkingHoursKey(id), hours).value.after
               == ks[DoctorKey(id) := HashValue(record)][WorkingHoursKey(id) := SetValue(hours)]
  {
    KeyInjective(Doctor, id, WorkingHours, id);
    assert WorkingHoursKey(id) !in ks[DoctorKey(id) := HashValue(record)];
  }

  /** Writing a non-empty hash and a non-empty set keeps Redis's invariant. */
  lemma CreatedWellFormed(ks: Keyspace, id: string, record: map<string, string>, hours: set<string>)
    requires WellFormed(ks) && "id" in record && hours != {}
    ensures WellFormed(ks[DoctorKey(id) := HashValue(record)][WorkingHoursKey(id) := SetValue(hours)])
  {
  }

  /** `getDoctor`. */
  function GetDoctor(ks: Keyspace, id: string): (o: Outcome)
    ensures o.Reply?
    ensures StatusOf(o) == NotFound <==> DoctorKey(id) !in ks
    ensures StatusOf(o) == OK <==>
              DoctorKey(id) in ks && ks[DoctorKey(id)].HashValue? && SetOrAbsent(ks, WorkingHoursKey(id))
    ensures StatusOf(o) == ServerError <==>
              DoctorKey(id) in ks && (!ks[DoctorKey(id)].HashValue? || !SetOrAbsent(ks, WorkingHoursKey(id)))
    ensures StatusOf(o) == OK ==>
              o.body == DoctorDetails(Spread(Fields(ks, DoctorKey(id)), Members(ks, WorkingHoursKey(id))))
  {
    if !Exists(ks, DoctorKey(id)) then Fail(NotFound, NotFoundMessage(id))
    else match HGetAll(ks, DoctorKey(id))
      case Err(_) => Fail(ServerError, GetError)
      case Ok(fields) =>
        match SMembers(ks, WorkingHoursKey(id))
        case Err(_) => Fail(ServerError, GetError)
        case Ok(hours) => Reply(OK, DoctorDetails(Spread(fields, hours)))
  }

  /** The keys `deleteDoctor` removes. */
  function DoctorKeys(id: string): set<string> {
    {DoctorKey(id), WorkingHoursKey(id), ReservationsKey(id)}
  }

  /** The reply to the transaction's replies: any 0 reads as a failure. */
  function DeletionReply(id: string, replies: seq<nat>, after: Keyspace): Step {
    if 0 in replies then Step(Fail(ServerError, DeletionError), after)
    else Step(Reply(OK, Message("Doctor with id: " + id + " deleted successfully!")), after)
  }

  /** `deleteDoctor`: one transaction deletes the doctor and the working
      hours, and the reservations when EXISTS, sent before the transaction
      runs, finds them. A missing working-hours set makes its DEL reply 0, so
      the handler reports a failure although every deletion took effect. */
  function DeleteDoctor(ks: Keyspace, id: string): (r: Step)
    ensures StatusOf(r.out) == NotFound <==> DoctorKey(id) !in ks
    ensures DoctorKey(id) !in ks ==> r.after == ks
    ensures DoctorKey(id) in ks ==> r.after == ks - DoctorKeys(id)
    ensures StatusOf(r.out) == ServerError <==> DoctorKey(id) in ks && WorkingHoursKey(id) !in ks
    ensures StatusOf(r.out) == OK <==> DoctorKey(id) in ks && WorkingHoursKey(id) in ks
    ensures WellFormed(ks) ==> WellFormed(r.after)
  {
    if !Exists(ks, DoctorKey(id)) then Step(Fail(NotFound, NotFoundMessage(id)), ks)
    else
      var w1 := Del(ks, DoctorKey(id));
      var w2 := Del(w1.after, WorkingHoursKey(id));
      KeyInjective(Doctor, id, WorkingHours, id);
      KeyInjective(Doctor, id, Reservations, id);
      KeyInjective(WorkingHours, id, Reservations, id);
      if Exists(ks, ReservationsKey(id)) then
        var w3 := Del(w2.after, ReservationsKey(id));
        DeletionReply(id, [w1.reply, w2.reply, w3.reply], w3.after)
      else
        DeletionReply(id, [w1.reply, w2.reply], w2.after)
  }

  /** The working-hours key `getDoctors` reads for a listed key:
      `workingHours:${key.split(":")[1]}`, where an undefined id renders as
      "undefined" (never the case for a listed key: see ListedHoursKey). */
  function HoursKeyOf(key: string): string {
    WorkingHoursKey(match KeyId(key) case Some(id) => id case None => "undefined")
  }

  /** Every key `doctor:*` matches has a second colon-separated field, so
      the working hours read for `doctor:<id>` are those of the id up to its
      first colon. */
  lemma ListedHoursKey(key: string)
    requires HasPrefix(Prefix(Doctor), key)
    ensures KeyId(key).Some?
    ensures HoursKeyOf(key) == WorkingHoursKey(Split(key[|Prefix(Doctor)|..], ':')[0])
  {
    KeyOfPrefixed(Doctor, key);
    KeyIdOf(Doctor, key[|Prefix(Doctor)|..]);
  }

  /** Each listed doctor key can be read as a hash and its working hours as
      a set. */
  predicate AllDoctorsReadable(ks: Keyspace, keys: set<string>) {
    forall k | k in keys :: HashOrAbsent(ks, k) && SetOrAbsent(ks, HoursKeyOf(k))
  }

  /** The loop of `getDoctors` over the listed keys. */
  method CollectDoctors(ks: Keyspace, keys: set<string>)
    returns (order: seq<string>, views: Result<seq<DoctorView>, Error>)
    ensures views.Ok? <==> AllDoctorsReadable(ks, keys)
    ensures views.Ok? ==> Enumerates(order, keys) && |views.value| == |order|
    ensures views.Ok? ==> forall i | 0 <= i < |order| ::
              views.value[i] == Spread(Fields(ks, order[i]), Members(ks, HoursKeyOf(order[i])))
  {
    var rest := keys;
    var done: seq<DoctorView> := [];
    order := [];
    while rest != {}
      invariant rest <= keys
      invariant forall i | 0 <= i < |order| :: order[i] in keys && order[i] !in rest
      invariant forall k | k in keys :: k in rest || k in order
      invariant forall i, j | 0 <= i < j < |order| :: order[i] != order[j]
      invariant |done| == |order|
      invariant forall i | 0 <= i < |order| :: done[i] == Spread(Fields(ks, order[i]), Members(ks, HoursKeyOf(order[i])))
      invariant forall i | 0 <= i < |order| :: HashOrAbsent(ks, order[i]) && SetOrAbsent(ks, HoursKeyOf(order[i]))
      decreases rest
    {
      var k :| k in rest;
      var details := HGetAll(ks, k);
      if details.Err? {
        return order, Err(details.error);
      }
      var hours := SMembers(ks, HoursKeyOf(k));
      if hours.Err? {
        return order, Err(hours.error);
      }
      order := order + [k];
      done := done + [Spread(details.value, hours.value)];
      rest := rest - {k};
    }
    views := Ok(done);
  }

  /** `getDoctors`: one entry per `doctor:*` key, in the order the store
      lists them; `order` is that listing. For a doctor whose id has no colon
      the entry is exactly what `getDoctor` replies. */
  method GetDoctors(ks: Keyspace) returns (out: Outcome, order: seq<string>)
    ensures out.Reply? && (out.status == OK || out.status == ServerError)
    ensures out.status == OK <==> AllDoctorsReadable(ks, KeysWithPrefix(ks, Prefix(Doctor)))
    ensures out.status == OK ==>
              && out.body.DoctorList?
              && Enumerates(order, KeysWithPrefix(ks, Prefix(Doctor)))
              && |out.body.doctors| == |order|
              && forall i | 0 <= i < |order| ::
                   var id := order[i][|Prefix(Doctor)|..];
                   order[i] == DoctorKey(id)
                   && out.body.doctors[i] == Spread(Fields(ks, order[i]), Members(ks, WorkingHoursKey(Split(id, ':')[0])))
                   && (':' !in id ==> GetDoctor(ks, id) == Reply(OK, DoctorDetails(out.body.doctors[i])))
  {
    var keys := Keys(ks, Pattern(Doctor));
    KeysOfNamespace(ks, Doctor);
    var views;
    order, views := CollectDoctors(ks, keys);
    if views.Err? {
      return Fail(ServerError, ListError), order;
    }
    out := Reply(OK, DoctorList(views.value));
    forall i | 0 <= i < |order|
      ensures var id := order[i][|Prefix(Doctor)|..];
              order[i] == DoctorKey(id)
              && out.body.doctors[i] == Spread(Fields(ks, order[i]), Members(ks, WorkingHoursKey(Split(id, ':')[0])))
              && (':' !in id ==> GetDoctor(ks, id) == Reply(OK, DoctorDetails(out.body.doctors[i])))
    {
      var id := order[i][|Prefix(Doctor)|..];
      KeyOfPrefixed(Doctor, order[i]);
      KeyIdOf(Doctor, id);
      ListedHoursKey(order[i]);
    }
  }

  /** `getDoctorReservations`: the hash of every key in the set
      `doctorReservations:<id>`. */
  method GetDoctorReservations(ks: Keyspace, id: string) returns (out: Outcome, order: seq<string>)
    ensures out.Reply?
    ensures out.status == NotFound <==> DoctorKey(id) !in ks
    ensures out.status == OK <==>
              DoctorKey(id) in ks && SetOrAbsent(ks, DoctorReservationsKey(id))
              && AllHashes(ks, Members(ks, DoctorReservationsKey(id)))
    ensures out.status == ServerError <==>
              DoctorKey(id) in ks && !(SetOrAbsent(ks, DoctorReservationsKey(id))
                                      && AllHashes(ks, Members(ks, DoctorReservationsKey(id))))
    ensures out.status == OK ==>
              && out.body.RecordList?
              && Enumerates(order, Members(ks, DoctorReservationsKey(id)))
              && |out.body.records| == |order|
              && forall i | 0 <= i < |order| :: out.body.records[i] == Fields(ks, order[i])
  {
    order := [];
    if !Exists(ks, DoctorKey(id)) {
      return Fail(NotFound, NotFoundMessage(id)), order;
    }
    var keys := SMembers(ks, DoctorReservationsKey(id));
    if keys.Err? {
      return Fail(ServerError, ReservationsError), order;
    }
    var records;
    order, records := CollectHashes(ks, keys.value);
    if records.Err? {
      return Fail(ServerError, ReservationsError), order;
    }
    out := Reply(OK, RecordList(records.value));
  }

  // ---------------------------------------------------------------------
  // Properties of the directory

  /** A doctor added and then looked up reads back with the given name,
      specialization and the given working hours as a set. */
  lemma AddThenGet(ks: Keyspace, freshId: string, name: string, specialization: string, hours: seq<string>)
    requires DoctorKey(freshId) !in ks && WorkingHoursKey(freshId) !in ks
    requires Complete(Some(name), Some(specialization), Some(hours))
    ensures GetDoctor(AddDoctor(ks, freshId, Some(name), Some(specialization), Some(hours)).after, freshId)
            == Reply(OK, DoctorDetails(DoctorView(DoctorRecord(freshId, name, specialization), set h | h in hours)))
  {
    var record := DoctorRecord(freshId, name, specialization);
    assert record - {"workingHours"} == record by {
      assert "workingHours"[0] == 'w';
    }
    GetCreatedDoctor(ks, freshId, record, set h | h in hours);
  }

  /** Looking up a doctor whose hash and working hours were just written. */
  lemma GetCreatedDoctor(ks: Keyspace, id: string, fields: map<string, string>, hours: set<string>)
    ensures GetDoctor(ks[DoctorKey(id) := HashValue(fields)][WorkingHoursKey(id) := SetValue(hours)], id)
            == Reply(OK, DoctorDetails(Spread(fields, hours)))
  {
    KeyInjective(Doctor, id, WorkingHours, id);
  }

  /** Adding a doctor and deleting it again restores the store, provided no
      reservations were left under the new id. */
  lemma AddThenDelete(ks: Keyspace, freshId: string, name: string, specialization: string, hours: seq<string>)
    requires DoctorKey(freshId) !in ks && WorkingHoursKey(freshId) !in ks && ReservationsKey(freshId) !in ks
    requires Complete(Some(name), Some(specialization), Some(hours))
    ensures var back := DeleteDoctor(AddDoctor(ks, freshId, Some(name), Some(specialization), Some(hours)).after, freshId);
            StatusOf(back.out) == OK && back.after == ks
  {
    var record := DoctorRecord(freshId, name, specialization);
    var hourSet := set h | h in hours;
    var after := AddDoctor(ks, freshId, Some(name), Some(specialization), Some(hours)).after;
    assert after == ks[DoctorKey(freshId) := HashValue(record)][WorkingHoursKey(freshId) := SetValue(hourSet)];
    assert DoctorKey(freshId) in after && WorkingHoursKey(freshId) in after;
    CreateThenDelete(ks, DoctorKey(freshId), HashValue(record), WorkingHoursKey(freshId), SetValue(hourSet),
                     DoctorKeys(freshId));
  }

  /** The cascade's scope: deleting a doctor removes exactly that doctor's
      record, working hours and reservations; every other key, including
      the doctor's `doctorReservations` set and all patient data, keeps its
      value. */
  lemma DeleteCascadeScope(ks: Keyspace, id: string, n: Namespace, other: string)
    requires DoctorKey(id) in ks
    ensures var after := DeleteDoctor(ks, id).after;
            var k := KeyOf(n, other);
            if other == id && n in {Doctor, WorkingHours, Reservations} then k !in after
            else (k in after <==> k in ks) && (k in ks ==> after[k] == ks[k])
  {
    KeyInjective(n, other, Doctor, id);
    KeyInjective(n, other, WorkingHours, id);
    KeyInjective(n, other, Reservations, id);
  }
}

=== FILE: http.dfy ===
/** What a handler produces: the status and JSON body it replies with, or no
    reply at all when it throws before its `try` block, together with the
    keyspace it leaves behind. */
module Http {
  import opened Wrappers
  import opened Store

  const OK := 200
  const BadRequest := 400
  const NotFound := 404
  const Conflict := 409
  const ServerError := 500

  /** A doctor as the doctor handlers return it: `{ ...hash, workingHours }`,
      so a hash field named `workingHours` is shadowed by the set. */
  datatype DoctorView = DoctorView(fields: map<string, string>, workingHours: set<string>)

  datatype Body =
    | Message(text: string)
    | Record(fields: map<string, string>)
    | DoctorDetails(view: DoctorView)
    | RecordList(records: seq<map<string, string>>)
    | DoctorList(doctors: seq<DoctorView>)

  datatype Outcome =
    | Reply(status: int, body: Body)
    | Unhandled   // an exception escapes the handler: no reply is sent

  /** One handler invocation as an atomic transition of the keyspace. */
  datatype Step = Step(out: Outcome, after: Keyspace)

  function Fail(status: int, text: string): Outcome {
    Reply(status, Message(text))
  }

  /** The object spread `{ ...fields, workingHours: hours }`. */
  function Spread(fields: map<string, string>, hours: set<string>): (v: DoctorView)
    ensures "workingHours" !in v.fields
    ensures forall f | f in fields && f != "workingHours" :: f in v.fields && v.fields[f] == fields[f]
    ensures v.fields.Keys <= fields.Keys && v.workingHours == hours
  {
    DoctorView(fields - {"workingHours"}, hours)
  }

  /** JavaScript truthiness of an optional string field of a request body:
      `undefined`, `null` and `""` are falsy. */
  predicate Truthy(field: Option<string>) {
    field.Some? && field.value != ""
  }

  function StatusOf(o: Outcome): int {
    if o.Reply? then o.status else 0
  }
}

=== FILE: keys.dfy ===
/** The key layout of the booking store: every record lives under a key
    `<namespace>:<id>`. The namespaces end in the only colon they contain,
    which makes a key determine its namespace and its id. */
module KeyLayout {
  import opened Store
  import opened Text
  import opened Wrappers

  datatype Namespace =
    | Doctor               // hash: id, name, specialization
    | WorkingHours         // set of time-of-day tokens
    | Reservations         // set of reserved date-time strings, per doctor
    | DoctorReservations   // set of reservation keys, per doctor
    | Patient              // hash: id, name, age, address
    | PatientReservations  // set of reservation keys, per patient

  /** The namespace name, without its trailing colon. */
  function Name(n: Namespace): string {
    match n
    case Doctor => "doctor"
    case WorkingHours => "workingHours"
    case Reservations => "reservations"
    case DoctorReservations => "doctorReservations"
    case Patient => "patient"
    case PatientReservations => "patientReservations"
  }

  function Prefix(n: Namespace): string {
    Name(n) + ":"
  }

  function KeyOf(n: Namespace, id: string): string {
    Prefix(n) + id
  }

  function DoctorKey(id: string): string { KeyOf(Doctor, id) }
  function WorkingHoursKey(id: string): string { KeyOf(WorkingHours, id) }
  function ReservationsKey(id: string): string { KeyOf(Reservations, id) }
  function DoctorReservationsKey(id: string): string { KeyOf(DoctorReservations, id) }
  function PatientKey(id: string): string { KeyOf(Patient, id) }
  function PatientReservationsKey(id: string): string { KeyOf(PatientReservations, id) }

  /** The pattern `<namespace>:*` the listing handlers pass to KEYS. */
  function Pattern(n: Namespace): string {
    Prefix(n) + "*"
  }

  /** KEYS `<namespace>:*` lists exactly the keys of the namespace. */
  lemma KeysOfNamespace(ks: Keyspace, n: Namespace)
    ensures Keys(ks, Pattern(n)) == KeysWithPrefix(ks, Prefix(n))
  {
    assert '*' !in Prefix(n) by {
      match n
      case Doctor =>
      case WorkingHours =>
      case Reservations =>
      case DoctorReservations =>
      case Patient =>
      case PatientReservations =>
    }
    KeysOfPrefixPattern(ks, Prefix(n));
  }

  /** The id the listing handlers recover from a key: `key.split(":")[1]`. */
  function KeyId(key: string): Option<string> {
    Field(key, ':', 1)
  }

  lemma NameHasNoColon(n: Namespace)
    ensures ':' !in Name(n)
  {
  }

  lemma NameInjective(n1: Namespace, n2: Namespace)
    requires Name(n1) == Name(n2)
    ensures n1 == n2
  {
  }

  /** The colon of a namespace prefix is its last character and its only one. */
  lemma ColonOnlyAtEnd(n: Namespace, j: int)
    requires 0 <= j < |Prefix(n)|
    ensures Prefix(n)[j] == ':' <==> j == |Prefix(n)| - 1
  {
    NameHasNoColon(n);
    if j < |Name(n)| {
      assert Prefix(n)[j] == Name(n)[j];
    }
  }

  /** A key begins with a namespace prefix only if it belongs to that
      namespace: the prefixes are free of one another. */
  lemma PrefixDeterminesNamespace(n1: Namespace, n2: Namespace, id: string)
    requires HasPrefix(Prefix(n1), KeyOf(n2, id))
    ensures n1 == n2
  {
    var p1, p2, key := Prefix(n1), Prefix(n2), KeyOf(n2, id);
    assert key[..|p2|] == p2;
    assert key[|p1| - 1] == p1[|p1| - 1] == ':';
    if |p1| <= |p2| {
      assert p2[|p1| - 1] == key[|p1| - 1];
      ColonOnlyAtEnd(n2, |p1| - 1);
      assert p1 == key[..|p1|] == p2;
      assert Name(n1) == p1[..|p1| - 1] == p2[..|p2| - 1] == Name(n2);
      NameInjective(n1, n2);
    } else {
      assert key[|p2| - 1] == p2[|p2| - 1] == ':';
      assert p1[|p2| - 1] == key[|p2| - 1];
      ColonOnlyAtEnd(n1, |p2| - 1);
    }
  }

  /** A key determines its namespace and its id: keys of different
      namespaces, or of different ids, never collide. */
  lemma KeyInjective(n1: Namespace, id1: string, n2: Namespace, id2: string)
    ensures KeyOf(n1, id1) == KeyOf(n2, id2) <==> n1 == n2 && id1 == id2
  {
    var key := KeyOf(n1, id1);
    if key == KeyOf(n2, id2) {
      assert key[..|Prefix(n1)|] == Prefix(n1);
      PrefixDeterminesNamespace(n1, n2, id2);
      assert id1 == key[|Prefix(n1)|..];
    }
  }

  /** Every key that starts with a namespace prefix is a key of that
      namespace, for the id that follows the prefix. */
  lemma KeyOfPrefixed(n: Namespace, key: string)
    requires HasPrefix(Prefix(n), key)
    ensures key == KeyOf(n, key[|Prefix(n)|..])
  {
    assert key == key[..|Prefix(n)|] + key[|Prefix(n)|..];
  }

  /** `key.split(":")[1]` of a namespaced key is its id up to the id's first
      colon; for an id without a colon it is the id itself. */
  lemma KeyIdOf(n: Namespace, id: string)
    ensures KeyId(KeyOf(n, id)) == Some(Split(id, ':')[0])
    ensures ':' !in id ==> KeyId(KeyOf(n, id)) == Some(id)
  {
    NameHasNoColon(n);
    assert KeyOf(n, id) == Name(n) + [':'] + id;
    SecondField(Name(n), ':', id);
    if ':' !in id {
      SplitWithoutSeparator(id, ':');
    }
  }
}

=== FILE: legacy.dfy ===
/** The earlier doctor handlers (controllers.js): the caller chooses the id,
    nothing is validated, and only the hash `doctor:<id>` with fields name and
    specialization is written, read and deleted. */
module LegacyDoctors {
  import opened Wrappers
  import opened Store
  import opened KeyLayout
  import opened Http
  import opened Listing

  const NotFoundMessage := "Doctor not found."
  const AddError := "Error adding doctor."
  const GetError := "Error getting doctor."
  const ListError := "Error retrieving doctors."

  /** `addDoctor`: HSET of name and specialization under the caller's id,
      overwriting those two fields and keeping any others. An undefined name
      or specialization is an argument the client rejects, inside the `try`. */
  function AddDoctor(ks: Keyspace, id: string, name: Option<string>, specialization: Option<string>): (r: Step)
    ensures r.out.Reply?
    ensures StatusOf(r.out) == OK <==> name.Some? && specialization.Some? && HashOrAbsent(ks, DoctorKey(id))
    ensures StatusOf(r.out) == OK ==>
              r.after == ks[DoctorKey(id) := HashValue(Fields(ks, DoctorKey(id))
                                              ["name" := name.value]["specialization" := specialization.value])]
    ensures StatusOf(r.out) != OK ==> StatusOf(r.out) == ServerError && r.after == ks
    ensures WellFormed(ks) ==> WellFormed(r.after)
  {
    if name.None? || specialization.None? then Step(Fail(ServerError, AddError), ks)
    else
      var fields := map["name" := name.value, "specialization" := specialization.value];
      assert "name" in fields;
      assert Fields(ks, DoctorKey(id)) + fields
             == Fields(ks, DoctorKey(id))["name" := name.value]["specialization" := specialization.value];
      match HSet(ks, DoctorKey(id), fields)
      case Err(_) => Step(Fail(ServerError, AddError), ks)
      case Ok(w) => Step(Reply(OK, Message("Doctor with id: " + id + " added successfully")), w.after)
  }

  /** `getDoctor`: the stored hash, without working hours. */
  function GetDoctor(ks: Keyspace, id: string): (o: Outcome)
    ensures o.Reply?
    ensures StatusOf(o) == NotFound <==> DoctorKey(id) !in ks
    ensures StatusOf(o) == OK <==> DoctorKey(id) in ks && ks[DoctorKey(id)].HashValue?
    ensures StatusOf(o) == ServerError <==> DoctorKey(id) in ks && !ks[DoctorKey(id)].HashValue?
    ensures StatusOf(o) == OK ==> o.body == Record(ks[DoctorKey(id)].fields)
  {
    if !Exists(ks, DoctorKey(id)) then Fail(NotFound, NotFoundMessage)
    else match HGetAll(ks, DoctorKey(id))
      case Err(_) => Fail(ServerError, GetError)
      case Ok(fields) => Reply(OK, Record(fields))
  }

  /** `deleteDoctor`: deletes the hash and nothing else. */
  function DeleteDoctor(ks: Keyspace, id: string): (r: Step)
    ensures r.out.Reply?
    ensures StatusOf(r.out) == NotFound <==> DoctorKey(id) !in ks
    ensures StatusOf(r.out) == OK <==> DoctorKey(id) in ks
    ensures r.after == ks - {DoctorKey(id)}
    ensures WellFormed(ks) ==> WellFormed(r.after)
  {
    if !Exists(ks, DoctorKey(id)) then Step(Fail(NotFound, NotFoundMessage), ks)
    else
      var w := Del(ks, DoctorKey(id));
      Step(Reply(OK, Message("Doctor with id: " + id + " deleted successfully")), w.after)
  }

  /** `getDoctors`: one record per `doctor:*` key, in the order the store
      lists them; `order` is that listing. */
  method GetDoctors(ks: Keyspace) returns (out: Outcome, order: seq<string>)
    ensures out.Reply? && (out.status == OK || out.status == ServerError)
    ensures out.status == OK <==> AllHashes(ks, KeysWithPrefix(ks, Prefix(Doctor)))
    ensures out.status == OK ==>
              && out.body.RecordList?
              && Enumerates(order, KeysWithPrefix(ks, Prefix(Doctor)))
              && |out.body.records| == |order|
              && forall i | 0 <= i < |order| :: out.body.records[i] == Fields(ks, order[i])
  {
    var records;
    KeysOfNamespace(ks, Doctor);
    order, records := CollectHashes(ks, Keys(ks, Pattern(Doctor)));
    if records.Err? {
      return Fail(ServerError, ListError), order;
    }
    out := Reply(OK, RecordList(records.value));
  }

  // ---------------------------------------------------------------------
  // Properties

  /** Adding under an existing id overwrites name and specialization and
      keeps the record's other fields; a lookup then reads the new values. */
  lemma AddThenGet(ks: Keyspace, id: string, name: string, specialization: string)
    requires HashOrAbsent(ks, DoctorKey(id))
    ensures var o := GetDoctor(AddDoctor(ks, id, Some(name), Some(specialization)).after, id);
            && o.Reply? && o.status == OK && o.body.Record?
            && o.body.fields["name"] == name && o.body.fields["specialization"] == specialization
            && forall f | f in Fields(ks, DoctorKey(id)) && f != "name" && f != "specialization" ::
                 f in o.body.fields && o.body.fields[f] == Fields(ks, DoctorKey(id))[f]
  {
    var after := AddDoctor(ks, id, Some(name), Some(specialization)).after;
    assert DoctorKey(id) in after;
  }

  /** Deleting leaves every other key as it was: unlike the newer handler,
      working hours and reservations are not cascaded. */
  lemma DeleteScope(ks: Keyspace, id: string, n: Namespace, other: string)
    ensures var after := DeleteDoctor(ks, id).after;
            var k := KeyOf(n, other);
            if n == Doctor && other == id then k !in after
            else (k in after <==> k in ks) && (k in ks ==> after[k] == ks[k])
  {
    KeyInjective(n, other, Doctor, id);
  }
}

=== FILE: listing.dfy ===
/** The loop the listing handlers share: for each key the store lists (KEYS
    or SMEMBERS, in an order the store chooses), read its hash with HGETALL
    and push it onto the reply. The first failing read abandons the loop. */
module Listing {
  import opened Wrappers
  import opened Store

  /** `order` lists every element of `s` exactly once. */
  predicate Enumerates(order: seq<string>, s: set<string>) {
    && (forall i | 0 <= i < |order| :: order[i] in s)
    && (forall k | k in s :: k in order)
    && (forall i, j | 0 <= i < j < |order| :: order[i] != order[j])
  }

  /** Every key of `keys` can be read as a hash. */
  predicate AllHashes(ks: Keyspace, keys: set<string>) {
    forall k | k in keys :: HashOrAbsent(ks, k)
  }

  /** Reads the hash of every key of `keys`, in the order `order` the store
      lists them; the records line up with that order. */
  method CollectHashes(ks: Keyspace, keys: set<string>)
    returns (order: seq<string>, records: Result<seq<map<string, string>>, Error>)
    ensures records.Ok? <==> AllHashes(ks, keys)
    ensures records.Ok? ==> Enumerates(order, keys) && |records.value| == |order|
    ensures records.Ok? ==> forall i | 0 <= i < |order| :: records.value[i] == Fields(ks, order[i])
  {
    var rest := keys;
    var done: seq<map<string, string>> := [];
    order := [];
    while rest != {}
      invariant rest <= keys
      invariant forall i | 0 <= i < |order| :: order[i] in keys && order[i] !in rest
      invariant forall k | k in keys :: k in rest || k in order
      invariant forall i, j | 0 <= i < j < |order| :: order[i] != order[j]
      invariant |done| == |order|
      invariant forall i | 0 <= i < |order| :: done[i] == Fields(ks, order[i])
      invariant forall i | 0 <= i < |order| :: HashOrAbsent(ks, order[i])
      decreases rest
    {
      var k :| k in rest;
      var reply := HGetAll(ks, k);
      if reply.Err? {
        return order, Err(reply.error);
      }
      order := order + [k];
      done := done + [reply.value];
      rest := rest - {k};
    }
    records := Ok(done);
  }
}

=== FILE: patients.dfy ===
/** The patient directory (controllers/patients.js): a patient is the hash
    `patient:<id>` with fields id, name, age and address. Deleting a patient
    deletes that hash only. */
module Patients {
  import opened Wrappers
  import opened Text
  import opened Store
  import opened KeyLayout
  import opened Http
  import opened Listing

  const MissingDetails := "Some details are missing."
  const AddError := "Error adding patient."
  const ListError := "Error fetching all patients."
  const GetError := "Error getting patient."
  const ReservationsError := "Error getting patient reservations."

  function NotFoundMessage(id: string): string {
    "Patient with id " + id + " not found."
  }

  /** The `age` of a request body: a JSON number (integral here) or string. */
  datatype Age = AgeNumber(n: int) | AgeString(s: string)

  /** JavaScript truthiness of `age`: 0 and "" are falsy. */
  predicate AgeTruthy(age: Option<Age>) {
    match age
    case None => false
    case Some(AgeNumber(n)) => n != 0
    case Some(AgeString(s)) => s != ""
  }

  /** `age.toString()`, exact for integer ages up to 2^53 in magnitude. */
  function AgeText(age: Age): string {
    match age
    case AgeNumber(n) => IntToString(n)
    case AgeString(s) => s
  }

  /** The request passes the presence check `!name || !age || !address`. */
  predicate Complete(name: Option<string>, age: Option<Age>, address: Option<string>) {
    Truthy(name) && AgeTruthy(age) && Truthy(address)
  }

  /** The hash written for a patient. */
  function PatientRecord(id: string, name: string, age: Age, address: string): map<string, string> {
    map["id" := id, "name" := name, "age" := AgeText(age), "address" := address]
  }

  /** `addPatient` with `newId` standing for the generated uuid. It writes
      the fields with HSET, whose reply is not examined. */
  function AddPatient(ks: Keyspace, newId: string, name: Option<string>, age: Option<Age>, address: Option<string>): (r: Step)
    ensures r.out.Reply?
    ensures StatusOf(r.out) == BadRequest <==> !Complete(name, age, address)
    ensures StatusOf(r.out) == OK <==> Complete(name, age, address) && HashOrAbsent(ks, PatientKey(newId))
    ensures StatusOf(r.out) == ServerError <==> Complete(name, age, address) && !HashOrAbsent(ks, PatientKey(newId))
    ensures StatusOf(r.out) == OK ==>
              r.after == ks[PatientKey(newId) := HashValue(Fields(ks, PatientKey(newId))
                                                  + PatientRecord(newId, name.value, age.value, address.value))]
    ensures StatusOf(r.out) != OK ==> r.after == ks
    ensures WellFormed(ks) ==> WellFormed(r.after)
  {
    if !Truthy(name) || !AgeTruthy(age) || !Truthy(address) then Step(Fail(BadRequest, MissingDetails), ks)
    else
      var record := PatientRecord(newId, name.value, age.value, address.value);
      assert "id" in record;
      match HSet(ks, PatientKey(newId), record)
      case Err(_) => Step(Fail(ServerError, AddError), ks)
      case Ok(w) => Step(Reply(OK, Message("Patient with id: " + newId + " added successfully!")), w.after)
  }

  /** The hash is not a patient: empty, or without a truthy `id`. */
  predicate Missing(fields: map<string, string>) {
    "id" !in fields || fields["id"] == ""
  }

  /** `getPatient`: decides on the hash alone, not on EXISTS. */
  function GetPatient(ks: Keyspace, id: string): (o: Outcome)
    ensures o.Reply?
    ensures StatusOf(o) == ServerError <==> !HashOrAbsent(ks, PatientKey(id))
    ensures StatusOf(o) == NotFound <==> HashOrAbsent(ks, PatientKey(id)) && Missing(Fields(ks, PatientKey(id)))
    ensures StatusOf(o) == OK <==> HashOrAbsent(ks, PatientKey(id)) && !Missing(Fields(ks, PatientKey(id)))
    ensures StatusOf(o) == OK ==> o.body == Record(Fields(ks, PatientKey(id))) && !Missing(o.body.fields)
  {
    match HGetAll(ks, PatientKey(id))
    case Err(_) => Fail(ServerError, GetError)
    case Ok(fields) =>
      if "id" !in fields || fields["id"] == "" then Fail(NotFound, NotFoundMessage(id))
      else Reply(OK, Record(fields))
  }

  /** `deletePatient`: no cascade. */
  function DeletePatient(ks: Keyspace, id: string): (r: Step)
    ensures r.out.Reply?
    ensures StatusOf(r.out) == NotFound <==> PatientKey(id) !in ks
    ensures StatusOf(r.out) == OK <==> PatientKey(id) in ks
    ensures r.after == ks - {PatientKey(id)}
    ensures WellFormed(ks) ==> WellFormed(r.after)
  {
    if !Exists(ks, PatientKey(id)) then Step(Fail(NotFound, NotFoundMessage(id)), ks)
    else
      var w := Del(ks, PatientKey(id));
      Step(Reply(OK, Message("Patient with id: " + id + " deleted successfully!")), w.after)
  }

  /** `getPatients`: one record per `patient:*` key, in the order the store
      lists them; `order` is that listing. */
  method GetPatients(ks: Keyspace) returns (out: Outcome, order: seq<string>)
    ensures out.Reply? && (out.status == OK || out.status == ServerError)
    ensures out.status == OK <==> AllHashes(ks, KeysWithPrefix(ks, Prefix(Patient)))
    ensures out.status == OK ==>
              && out.body.RecordList?
              && Enumerates(order, KeysWithPrefix(ks, Prefix(Patient)))
              && |out.body.records| == |order|
              && forall i | 0 <= i < |order| :: out.body.records[i] == Fields(ks, order[i])
  {
    var records;
    KeysOfNamespace(ks, Patient);
    order, records := CollectHashes(ks, Keys(ks, Pattern(Patient)));
    if records.Err? {
      return Fail(ServerError, ListError), order;
    }
    out := Reply(OK, RecordList(records.value));
  }

  /** `getPatientReservations`: the hash of every key in the set
      `patientReservations:<id>`. */
  method GetPatientReservations(ks: Keyspace, id: string) returns (out: Outcome, order: seq<string>)
    ensures out.Reply?
    ensures out.status == NotFound <==> PatientKey(id) !in ks
    ensures out.status == OK <==>
              PatientKey(id) in ks && SetOrAbsent(ks, PatientReservationsKey(id))
              && AllHashes(ks, Members(ks, PatientReservationsKey(id)))
    ensures out.status == ServerError <==>
              PatientKey(id) in ks && !(SetOrAbsent(ks, PatientReservationsKey(id))
                                       && AllHashes(ks, Members(ks, PatientReservationsKey(id))))
    ensures out.status == OK ==>
              && out.body.RecordList?
              && Enumerates(order, Members(ks, PatientReservationsKey(id)))
              && |out.body.records| == |order|
              && forall i | 0 <= i < |order| :: out.body.records[i] == Fields(ks, order[i])
  {
    order := [];
    if !Exists(ks, PatientKey(id)) {
      return Fail(NotFound, NotFoundMessage(id)), order;
    }
    var keys := SMembers(ks, PatientReservationsKey(id));
    if keys.Err? {
      return Fail(ServerError, ReservationsError), order;
    }
    var records;
    order, records := CollectHashes(ks, keys.value);
    if records.Err? {
      return Fail(ServerError, ReservationsError), order;
    }
    out := Reply(OK, RecordList(records.value));
  }

  // ---------------------------------------------------------------------
  // Properties of the directory

  /** Zero is a falsy age: a patient of age 0 is refused as incomplete. */
  lemma AgeZeroRefused(ks: Keyspace, newId: string, name: string, address: string)
    ensures AddPatient(ks, newId, Some(name), Some(AgeNumber(0)), Some(address)) == Step(Fail(BadRequest, MissingDetails), ks)
  {
  }

  /** A new patient reads back with the given name and address and the age
      rendered as a decimal string that parses back to the age. */
  lemma AddThenGet(ks: Keyspace, newId: string, name: string, age: int, address: string)
    requires PatientKey(newId) !in ks
    requires Complete(Some(name), Some(AgeNumber(age)), Some(address)) && newId != ""
    ensures var o := GetPatient(AddPatient(ks, newId, Some(name), Some(AgeNumber(age)), Some(address)).after, newId);
            && o == Reply(OK, Record(PatientRecord(newId, name, AgeNumber(age), address)))
            && ParseInt(o.body.fields["age"]) == Some(age)
  {
    var record := PatientRecord(newId, name, AgeNumber(age), address);
    assert map[] + record == record;
    GetStoredPatient(ks, newId, record);
    IntToStringRoundTrip(age);
  }

  /** Looking up a patient whose hash was just written. */
  lemma GetStoredPatient(ks: Keyspace, id: string, fields: map<string, string>)
    requires "id" in fields && fields["id"] != ""
    ensures GetPatient(ks[PatientKey(id) := HashValue(fields)], id) == Reply(OK, Record(fields))
  {
  }

  /** Adding a patient under an unused id and deleting it restores the store. */
  lemma AddThenDelete(ks: Keyspace, newId: string, name: string, age: Age, address: string)
    requires PatientKey(newId) !in ks
    requires Complete(Some(name), Some(age), Some(address))
    ensures var back := DeletePatient(AddPatient(ks, newId, Some(name), Some(age), Some(address)).after, newId);
            StatusOf(back.out) == OK && back.after == ks
  {
    var record := PatientRecord(newId, name, age, address);
    var after := AddPatient(ks, newId, Some(name), Some(age), Some(address)).after;
    assert after == ks[PatientKey(newId) := HashValue(record)] by {
      assert map[] + record == record;
    }
    CreateThenDelete(ks, PatientKey(newId), HashValue(record), PatientKey(newId), HashValue(record), {PatientKey(newId)});
  }

  /** No cascade: deleting a patient changes no key but the patient's hash;
      the patient's reservation index and every doctor's reservations stay. */
  lemma DeleteScope(ks: Keyspace, id: string, n: Namespace, other: string)
    ensures var after := DeletePatient(ks, id).after;
            var k := KeyOf(n, other);
            if n == Patient && other == id then k !in after
            else (k in after <==> k in ks) && (k in ks ==> after[k] == ks[k])
  {
    KeyInjective(n, other, Patient, id);
  }
}

=== FILE: reservations.dfy ===
/** The reservation engine (controllers/reservations.js): a doctor's
    reservations are the set of raw date-time strings under
    `reservations:<doctorId>`. Reserving checks, in order and failing fast,
    that the doctor exists, that the date-time is not already reserved and
    that its time of day is one of the doctor's working hours, and only then
    adds it; removing checks the doctor and the reservation and takes the
    date-time out again. */
module Reservations {
  import opened Wrappers
  import opened Text
  import opened Store
  import opened KeyLayout
  import opened Http

  const AlreadyReserved := "Selected time slot already reserved."
  const NotAvailable := "Selected time slot is not available."
  const TakenMeanwhile := "Time slot has been reserved by another user."
  const NotReserved := "Selected time slot is not reserved."
  const ReserveError := "Error reserving appointment."
  const RemoveError := "Error removing reservation."

  function DoctorNotFound(doctorId: string): string {
    "Doctor with id " + doctorId + " not found."
  }

  /** The time of day checked against the working hours:
      `dateTime.split(" ")[1]`, undefined when there is no space. */
  function TimeOfDay(dateTime: string): Option<string> {
    Field(dateTime, ' ', 1)
  }

  /** `dateTime` is among the doctor's reservations. */
  predicate Reserved(ks: Keyspace, doctorId: string, dateTime: string) {
    dateTime in Members(ks, ReservationsKey(doctorId))
  }

  /** The time of day of `dateTime` is one of the doctor's working hours. */
  predicate WithinHours(ks: Keyspace, doctorId: string, dateTime: string) {
    TimeOfDay(dateTime).Some? && TimeOfDay(dateTime).value in Members(ks, WorkingHoursKey(doctorId))
  }

  /** The store holds a set, or nothing, at both keys the engine reads. */
  predicate Readable(ks: Keyspace, doctorId: string) {
    SetOrAbsent(ks, ReservationsKey(doctorId)) && SetOrAbsent(ks, WorkingHoursKey(doctorId))
  }

  /** `reserveAppointment`. A missing `dateTime` makes `dateTime.split`
      throw before the handler's `try`, so nothing is replied. */
  function Reserve(ks: Keyspace, doctorId: string, dateTime: Option<string>): (r: Step)
    ensures r.out.Unhandled? <==> dateTime.None?
    ensures StatusOf(r.out) == NotFound <==> dateTime.Some? && DoctorKey(doctorId) !in ks
    // the slot check comes before the working-hours check
    ensures r.out == Fail(Conflict, AlreadyReserved) <==>
              dateTime.Some? && DoctorKey(doctorId) in ks
              && SetOrAbsent(ks, ReservationsKey(doctorId)) && Reserved(ks, doctorId, dateTime.value)
    ensures r.out == Fail(Conflict, NotAvailable) <==>
              dateTime.Some? && DoctorKey(doctorId) in ks && Readable(ks, doctorId)
              && !Reserved(ks, doctorId, dateTime.value)
              && TimeOfDay(dateTime.value).Some? && !WithinHours(ks, doctorId, dateTime.value)
    // the "reserved by another user" conflict cannot happen in one atomic step
    ensures StatusOf(r.out) == Conflict ==>
              r.out == Fail(Conflict, AlreadyReserved) || r.out == Fail(Conflict, NotAvailable)
    ensures StatusOf(r.out) == OK <==>
              dateTime.Some? && DoctorKey(doctorId) in ks && Readable(ks, doctorId)
              && !Reserved(ks, doctorId, dateTime.value) && WithinHours(ks, doctorId, dateTime.value)
    // every other case is the catch-all: a store read fails or the time is undefined
    ensures StatusOf(r.out) == ServerError <==>
              dateTime.Some? && DoctorKey(doctorId) in ks
              && (!SetOrAbsent(ks, ReservationsKey(doctorId))
                  || (!Reserved(ks, doctorId, dateTime.value)
                      && (TimeOfDay(dateTime.value).None? || !SetOrAbsent(ks, WorkingHoursKey(doctorId)))))
    ensures r.out.Reply? ==> r.out.status in {OK, NotFound, Conflict, ServerError}
    ensures StatusOf(r.out) == OK ==>
              r.after == ks[ReservationsKey(doctorId) :=
                              SetValue(Members(ks, ReservationsKey(doctorId)) + {dateTime.value})]
    ensures StatusOf(r.out) != OK ==> r.after == ks
    ensures WellFormed(ks) ==> WellFormed(r.after)
  {
    match dateTime
    case None => Step(Unhandled, ks)
    case Some(dt) =>
      var reservationsKey := ReservationsKey(doctorId);
      if !Exists(ks, DoctorKey(doctorId)) then Step(Fail(NotFound, DoctorNotFound(doctorId)), ks)
      else match SIsMember(ks, reservationsKey, dt)
        case Err(_) => Step(Fail(ServerError, ReserveError), ks)
        case Ok(true) => Step(Fail(Conflict, AlreadyReserved), ks)
        case Ok(false) =>
          match TimeOfDay(dt)
          // SISMEMBER with an undefined member is rejected by the client
          case None => Step(Fail(ServerError, ReserveError), ks)
          case Some(time) =>
            match SIsMember(ks, WorkingHoursKey(doctorId), time)
            case Err(_) => Step(Fail(ServerError, ReserveError), ks)
            case Ok(false) => Step(Fail(Conflict, NotAvailable), ks)
            case Ok(true) =>
              match SAdd(ks, reservationsKey, {dt})
              case Err(_) => Step(Fail(ServerError, ReserveError), ks)
              case Ok(w) =>
                // the transaction's replies are checked for a 0
                if 0 in [w.reply] then Step(Fail(Conflict, TakenMeanwhile), w.after)
                else Step(Reply(OK, Message("Appointment successfully reserved for " + dt + "!")), w.after)
  }

  /** `removeReservation`. An undefined `dateTime` reaches SISMEMBER, which
      the client rejects inside the `try`. */
  function Remove(ks: Keyspace, doctorId: string, dateTime: Option<string>): (r: Step)
    ensures r.out.Reply?
    ensures StatusOf(r.out) == NotFound <==> DoctorKey(doctorId) !in ks
    ensures r.out == Fail(Conflict, NotReserved) <==>
              DoctorKey(doctorId) in ks && dateTime.Some?
              && SetOrAbsent(ks, ReservationsKey(doctorId)) && !Reserved(ks, doctorId, dateTime.value)
    ensures StatusOf(r.out) == OK <==>
              DoctorKey(doctorId) in ks && dateTime.Some? && Reserved(ks, doctorId, dateTime.value)
    ensures StatusOf(r.out) == ServerError <==>
              DoctorKey(doctorId) in ks && (dateTime.None? || !SetOrAbsent(ks, ReservationsKey(doctorId)))
    ensures r.out.status in {OK, NotFound, Conflict, ServerError}
    ensures StatusOf(r.out) == OK ==>
              var rk := ReservationsKey(doctorId);
              var left := Members(ks, rk) - {dateTime.value};
              r.after == if left == {} then ks - {rk} else ks[rk := SetValue(left)]
    ensures StatusOf(r.out) != OK ==> r.after == ks
    ensures WellFormed(ks) ==> WellFormed(r.after)
  {
    var reservationsKey := ReservationsKey(doctorId);
    if !Exists(ks, DoctorKey(doctorId)) then Step(Fail(NotFound, DoctorNotFound(doctorId)), ks)
    else match dateTime
      case None => Step(Fail(ServerError, RemoveError), ks)
      case Some(dt) =>
        match SIsMember(ks, reservationsKey, dt)
        case Err(_) => Step(Fail(ServerError, RemoveError), ks)
        case Ok(false) => Step(Fail(Conflict, NotReserved), ks)
        case Ok(true) =>
          match SRem(ks, reservationsKey, dt)
          case Err(_) => Step(Fail(ServerError, RemoveError), ks)
          case Ok(w) => Step(Reply(OK, Message("Reservation for " + dt + " removed successfully!")), w.after)
  }

  predicate Succeeds(s: Step) {
    StatusOf(s.out) == OK
  }

  // ---------------------------------------------------------------------
  // Properties of the engine

  /** For a date-time written `<date> <time>`, the token checked against the
      working hours is the time: "2024-01-01 09:00" gives "09:00". */
  lemma TimeOfDayOfDateAndTime(date: string, time: string)
    requires ' ' !in date && ' ' !in time
    ensures TimeOfDay(date + " " + time) == Some(time)
  {
    SecondField(date, ' ', time);
    SplitWithoutSeparator(time, ' ');
  }

  /** Slot uniqueness: once a date-time is reserved, reserving it again is
      refused as already reserved and changes nothing. */
  lemma ReserveTwice(ks: Keyspace, doctorId: string, dateTime: string)
    requires Succeeds(Reserve(ks, doctorId, Some(dateTime)))
    ensures Reserve(Reserve(ks, doctorId, Some(dateTime)).after, doctorId, Some(dateTime))
            == Step(Fail(Conflict, AlreadyReserved), Reserve(ks, doctorId, Some(dateTime)).after)
  {
    var mid := Reserve(ks, doctorId, Some(dateTime)).after;
    KeyInjective(Doctor, doctorId, Reservations, doctorId);
    assert DoctorKey(doctorId) in mid;
    assert Reserved(mid, doctorId, dateTime);
  }

  /** Reserving and then removing the same date-time restores the store
      exactly: the reservation set, or its absence, is as before. */
  lemma ReserveThenRemove(ks: Keyspace, doctorId: string, dateTime: string)
    requires WellFormed(ks)
    requires Succeeds(Reserve(ks, doctorId, Some(dateTime)))
    ensures var back := Remove(Reserve(ks, doctorId, Some(dateTime)).after, doctorId, Some(dateTime));
            Succeeds(back) && back.after == ks
  {
    var rk := ReservationsKey(doctorId);
    var mid := Reserve(ks, doctorId, Some(dateTime)).after;
    SAddThenSRem(ks, rk, dateTime);
    assert mid == SAdd(ks, rk, {dateTime}).value.after;
    KeyInjective(Doctor, doctorId, Reservations, doctorId);
    assert DoctorKey(doctorId) in mid;
  }

  /** Reserve, remove, reserve again: the second reservation succeeds and
      leaves the same store as the first; no residue of the removal stays. */
  lemma ReserveRemoveReserve(ks: Keyspace, doctorId: string, dateTime: string)
    requires WellFormed(ks)
    requires Succeeds(Reserve(ks, doctorId, Some(dateTime)))
    ensures var first := Reserve(ks, doctorId, Some(dateTime));
            var again := Reserve(Remove(first.after, doctorId, Some(dateTime)).after, doctorId, Some(dateTime));
            Succeeds(again) && again.after == first.after
  {
    ReserveThenRemove(ks, doctorId, dateTime);
  }

  /** Removing twice: the second removal finds nothing reserved. */
  lemma RemoveTwice(ks: Keyspace, doctorId: string, dateTime: string)
    requires Succeeds(Remove(ks, doctorId, Some(dateTime)))
    ensures var mid := Remove(ks, doctorId, Some(dateTime)).after;
            Remove(mid, doctorId, Some(dateTime)) == Step(Fail(Conflict, NotReserved), mid)
  {
    var mid := Remove(ks, doctorId, Some(dateTime)).after;
    KeyInjective(Doctor, doctorId, Reservations, doctorId);
    assert DoctorKey(doctorId) in mid;
    assert !Reserved(mid, doctorId, dateTime);
  }

  // ---------------------------------------------------------------------
  // Runs of reservation requests

  datatype Request = Request(doctorId: string, dateTime: string)

  function ReserveRequest(ks: Keyspace, req: Request): Step {
    Reserve(ks, req.doctorId, Some(req.dateTime))
  }

  /** The stores a run of reservation requests passes through, one request
      after another: `states[i]` is the store request `i` meets. */
  function Run(ks: Keyspace, reqs: seq<Request>): (states: seq<Keyspace>)
    ensures |states| == |reqs| + 1 && states[0] == ks
    ensures forall i | 0 <= i < |reqs| :: states[i + 1] == ReserveRequest(states[i], reqs[i]).after
    decreases |reqs|
  {
    if |reqs| == 0 then [ks]
    else [ks] + Run(ReserveRequest(ks, reqs[0]).after, reqs[1..])
  }

  /** Reserving never deletes a key and never un-reserves a date-time. */
  lemma ReserveOnlyGrows(ks: Keyspace, req: Request, doctorId: string, dateTime: string)
    ensures ks.Keys <= ReserveRequest(ks, req).after.Keys
    ensures Reserved(ks, doctorId, dateTime) ==> Reserved(ReserveRequest(ks, req).after, doctorId, dateTime)
  {
  }

  /** Along a run, keys and reservations persist. */
  lemma {:induction false} RunOnlyGrows(ks: Keyspace, reqs: seq<Request>, i: nat, j: nat, doctorId: string, dateTime: string)
    requires i <= j <= |reqs|
    ensures Run(ks, reqs)[i].Keys <= Run(ks, reqs)[j].Keys
    ensures Reserved(Run(ks, reqs)[i], doctorId, dateTime) ==> Reserved(Run(ks, reqs)[j], doctorId, dateTime)
    decreases j - i
  {
    if i < j {
      var states := Run(ks, reqs);
      ReserveOnlyGrows(states[i], reqs[i], doctorId, dateTime);
      RunOnlyGrows(ks, reqs, i + 1, j, doctorId, dateTime);
    }
  }

  /** Slot uniqueness over any run: two requests for the same doctor and
      date-time never both succeed. */
  lemma RunBooksSlotOnce(ks: Keyspace, reqs: seq<Request>, i: nat, j: nat)
    requires i < j < |reqs| && reqs[i] == reqs[j]
    requires Succeeds(ReserveRequest(Run(ks, reqs)[i], reqs[i]))
    ensures !Succeeds(ReserveRequest(Run(ks, reqs)[j], reqs[j]))
  {
    var states := Run(ks, reqs);
    assert Reserved(states[i + 1], reqs[i].doctorId, reqs[i].dateTime);
    RunOnlyGrows(ks, reqs, i + 1, j, reqs[i].doctorId, reqs[i].dateTime);
  }

  /** N identical requests in a row: when the first succeeds, every later one
      is refused as already reserved. */
  lemma RepeatedRequestsBookOnce(ks: Keyspace, reqs: seq<Request>, j: nat)
    requires 0 < j < |reqs|
    requires forall i | 0 <= i < |reqs| :: reqs[i] == reqs[0]
    requires Succeeds(ReserveRequest(ks, reqs[0]))
    ensures ReserveRequest(Run(ks, reqs)[j], reqs[j]).out == Fail(Conflict, AlreadyReserved)
  {
    var states := Run(ks, reqs);
    var req := reqs[0];
    KeyInjective(Doctor, req.doctorId, Reservations, req.doctorId);
    assert DoctorKey(req.doctorId) in states[1];
    assert Reserved(states[1], req.doctorId, req.dateTime);
    RunOnlyGrows(ks, reqs, 1, j, req.doctorId, req.dateTime);
  }
}

=== FILE: store.dfy ===
/** The key-value store the handlers talk to, as a value: a Redis keyspace
    mapping each key to a hash, a set of strings or a plain string, and the
    commands the handlers issue (`exists`, `hSet`, `hGetAll`, `sAdd`,
    `sIsMember`, `sRem`, `sMembers`, `del`, `keys`) as pure functions of it.
    A command applied to a key of the wrong kind fails with `WrongType`;
    Redis never keeps an empty hash or set, so removing the last member of a
    set removes its key. */
module Store {
  import opened Wrappers

  datatype Value =
    | HashValue(fields: map<string, string>)
    | SetValue(members: set<string>)
    | StringValue(text: string)

  type Keyspace = map<string, Value>

  datatype Error = WrongType | MissingArguments

  /** The reply of a writing command together with the keyspace after it. */
  datatype Write<+T> = Write(reply: T, after: Keyspace)

  /** Redis's own invariant: a key never holds an empty hash or set. */
  predicate WellFormed(ks: Keyspace) {
    forall k | k in ks :: NonEmpty(ks[k])
  }

  predicate NonEmpty(v: Value) {
    match v
    case HashValue(f) => f != map[]
    case SetValue(m) => m != {}
    case StringValue(_) => true
  }

  /** The members of the set at `k`, empty when the key is absent or holds
      something else. */
  function Members(ks: Keyspace, k: string): set<string> {
    if k in ks && ks[k].SetValue? then ks[k].members else {}
  }

  /** The fields of the hash at `k`, empty when the key is absent or holds
      something else. */
  function Fields(ks: Keyspace, k: string): map<string, string> {
    if k in ks && ks[k].HashValue? then ks[k].fields else map[]
  }

  /** `k` can be read or written as a set: it is absent or holds one. */
  predicate SetOrAbsent(ks: Keyspace, k: string) {
    k !in ks || ks[k].SetValue?
  }

  /** `k` can be read or written as a hash: it is absent or holds one. */
  predicate HashOrAbsent(ks: Keyspace, k: string) {
    k !in ks || ks[k].HashValue?
  }

  predicate HasPrefix(prefix: string, s: string) {
    |prefix| <= |s| && s[..|prefix|] == prefix
  }

  // ---------------------------------------------------------------------
  // Reading commands

  /** EXISTS with one key. */
  function Exists(ks: Keyspace, k: string): bool {
    k in ks
  }

  /** HGETALL: an absent key reads as an empty hash. */
  function HGetAll(ks: Keyspace, k: string): (r: Result<map<string, string>, Error>)
    ensures r.Ok? <==> HashOrAbsent(ks, k)
    ensures r.Ok? ==> r.value == Fields(ks, k)
  {
    if k !in ks then Ok(map[])
    else if ks[k].HashValue? then Ok(ks[k].fields)
    else Err(WrongType)
  }

  /** SISMEMBER: an absent key reads as an empty set. */
  function SIsMember(ks: Keyspace, k: string, m: string): (r: Result<bool, Error>)
    ensures r.Ok? <==> SetOrAbsent(ks, k)
    ensures r.Ok? ==> (r.value <==> m in Members(ks, k))
  {
    if k !in ks then Ok(false)
    else if ks[k].SetValue? then Ok(m in ks[k].members)
    else Err(WrongType)
  }

  /** SMEMBERS: an absent key reads as an empty set. */
  function SMembers(ks: Keyspace, k: string): (r: Result<set<string>, Error>)
    ensures r.Ok? <==> SetOrAbsent(ks, k)
    ensures r.Ok? ==> r.value == Members(ks, k)
  {
    if k !in ks then Ok({})
    else if ks[k].SetValue? then Ok(ks[k].members)
    else Err(WrongType)
  }

  /** The glob match of KEYS, for patterns built from literal characters and
      `*` (any run of characters). */
  predicate GlobMatches(pattern: string, s: string)
    decreases |pattern| + |s|
  {
    if |pattern| == 0 then |s| == 0
    else if pattern[0] == '*' then GlobMatches(pattern[1..], s) || (|s| > 0 && GlobMatches(pattern, s[1..]))
    else |s| > 0 && s[0] == pattern[0] && GlobMatches(pattern[1..], s[1..])
  }

  /** KEYS: every stored key the pattern matches. */
  function Keys(ks: Keyspace, pattern: string): set<string> {
    set k | k in ks && GlobMatches(pattern, k)
  }

  /** The stored keys that start with `prefix`. */
  function KeysWithPrefix(ks: Keyspace, prefix: string): set<string> {
    set k | k in ks && HasPrefix(prefix, k)
  }

  // ---------------------------------------------------------------------
  // Writing commands

  /** HSET: adds or overwrites fields and replies with the number of fields
      that were new. */
  function HSet(ks: Keyspace, k: string, f: map<string, string>): (r: Result<Write<nat>, Error>)
    ensures r.Ok? <==> f != map[] && HashOrAbsent(ks, k)
    ensures r.Ok? ==> r.value.after == ks[k := HashValue(Fields(ks, k) + f)]
    ensures r.Ok? ==> r.value.reply == |f.Keys - Fields(ks, k).Keys|
  {
    if f == map[] then Err(MissingArguments)
    else if k !in ks then assert map[] + f == f; Ok(Write(|f.Keys|, ks[k := HashValue(f)]))
    else match ks[k]
      case HashValue(cur) => Ok(Write(|f.Keys - cur.Keys|, ks[k := HashValue(cur + f)]))
      case _ => Err(WrongType)
  }

  /** SADD: adds members and replies with the number that were new. */
  function SAdd(ks: Keyspace, k: string, ms: set<string>): (r: Result<Write<nat>, Error>)
    ensures r.Ok? <==> ms != {} && SetOrAbsent(ks, k)
    ensures r.Ok? ==> r.value.after == ks[k := SetValue(Members(ks, k) + ms)]
    ensures r.Ok? ==> r.value.reply == |ms - Members(ks, k)|
  {
    if ms == {} then Err(MissingArguments)
    else if k !in ks then Ok(Write(|ms|, ks[k := SetValue(ms)]))
    else match ks[k]
      case SetValue(cur) => Ok(Write(|ms - cur|, ks[k := SetValue(cur + ms)]))
      case _ => Err(WrongType)
  }

  /** SREM of one member: replies 1 when it was present; a set left empty is
      deleted. */
  function SRem(ks: Keyspace, k: string, m: string): (r: Result<Write<nat>, Error>)
    ensures r.Ok? <==> SetOrAbsent(ks, k)
    ensures r.Ok? ==> (r.value.reply == 1 <==> m in Members(ks, k))
    ensures r.Ok? && m !in Members(ks, k) ==> r.value.after == ks
    ensures r.Ok? && m in Members(ks, k) && Members(ks, k) == {m} ==> r.value.after == ks - {k}
    ensures r.Ok? && m in Members(ks, k) && Members(ks, k) != {m} ==>
              r.value.after == ks[k := SetValue(Members(ks, k) - {m})]
  {
    if k !in ks then Ok(Write(0, ks))
    else match ks[k]
      case SetValue(cur) =>
        if m !in cur then Ok(Write(0, ks))
        else if cur - {m} == {} then Ok(Write(1, ks - {k}))
        else Ok(Write(1, ks[k := SetValue(cur - {m})]))
      case _ => Err(WrongType)
  }

  /** DEL of one key: replies 1 when it existed. */
  function Del(ks: Keyspace, k: string): (r: Write<nat>)
    ensures r.after == ks - {k}
    ensures r.reply == 1 <==> k in ks
    ensures r.reply == 0 <==> k !in ks
  {
    if k in ks then Write(1, ks - {k}) else Write(0, ks)
  }

  // ---------------------------------------------------------------------
  // Round trips of the commands

  /** Writing keys the keyspace did not have and then deleting them, along
      with other absent keys, restores the keyspace. */
  lemma CreateThenDelete(ks: Keyspace, a: string, va: Value, b: string, vb: Value, gone: set<string>)
    requires a in gone && b in gone
    requires forall k | k in gone :: k !in ks
    ensures ks[a := va][b := vb] - gone == ks
  {
    var back := ks[a := va][b := vb] - gone;
    assert back.Keys == ks.Keys;
    forall k | k in ks
      ensures back[k] == ks[k]
    {
      assert k != a && k != b;
    }
  }

  /** Adding a new member and then removing it restores the keyspace exactly,
      because Redis deletes a set emptied by the removal. */
  lemma {:induction false} SAddThenSRem(ks: Keyspace, k: string, m: string)
    requires WellFormed(ks)
    requires SetOrAbsent(ks, k) && m !in Members(ks, k)
    ensures SAdd(ks, k, {m}).Ok?
    ensures SRem(SAdd(ks, k, {m}).value.after, k, m) == Ok(Write(1, ks))
  {
    var mid := SAdd(ks, k, {m}).value.after;
    assert Members(mid, k) == Members(ks, k) + {m};
    if k in ks {
      assert Members(ks, k) != {};
      assert Members(mid, k) - {m} == Members(ks, k);
      assert mid[k := SetValue(Members(ks, k))] == ks;
    } else {
      assert Members(mid, k) == {m};
      assert mid - {k} == ks;
    }
  }

  // ---------------------------------------------------------------------
  // Laws linking the commands

  /** A lone `*` matches every string. */
  lemma {:induction false} StarMatchesAll(s: string)
    ensures GlobMatches("*", s)
    decreases |s|
  {
    if |s| > 0 {
      StarMatchesAll(s[1..]);
    }
  }

  /** The pattern `<prefix>*` matches exactly the strings that start with
      the prefix, when the prefix has no `*` of its own. */
  lemma {:induction false} PrefixPatternMatches(prefix: string, s: string)
    requires '*' !in prefix
    ensures GlobMatches(prefix + "*", s) <==> HasPrefix(prefix, s)
    decreases |prefix|
  {
    if |prefix| == 0 {
      assert prefix + "*" == "*";
      StarMatchesAll(s);
    } else {
      assert (prefix + "*")[0] == prefix[0];
      assert (prefix + "*")[1..] == prefix[1..] + "*";
      PrefixPatternMatches(prefix[1..], if |s| > 0 then s[1..] else s);
      if |s| > 0 && s[0] == prefix[0] && |prefix| <= |s| {
        assert s[..|prefix|] == [s[0]] + s[1..][..|prefix| - 1];
        assert prefix == [prefix[0]] + prefix[1..];
      }
    }
  }

  /** KEYS `<prefix>*` lists exactly the stored keys that start with the
      prefix. */
  lemma KeysOfPrefixPattern(ks: Keyspace, prefix: string)
    requires '*' !in prefix
    ensures Keys(ks, prefix + "*") == KeysWithPrefix(ks, prefix)
  {
    forall k | k in ks
      ensures GlobMatches(prefix + "*", k) <==> HasPrefix(prefix, k)
    {
      PrefixPatternMatches(prefix, k);
    }
  }

  /** HGETALL after HSET reads the merged hash, and no other key changes. */
  lemma HSetThenHGetAll(ks: Keyspace, k: string, f: map<string, string>, other: string)
    requires HSet(ks, k, f).Ok?
    ensures HGetAll(HSet(ks, k, f).value.after, k) == Ok(Fields(ks, k) + f)
    ensures other != k ==> HGetAll(HSet(ks, k, f).value.after, other) == HGetAll(ks, other)
  {
  }

  /** After SADD, SISMEMBER holds exactly for the old and the added members
      and SMEMBERS reads their union. */
  lemma SAddThenRead(ks: Keyspace, k: string, ms: set<string>, m: string)
    requires SAdd(ks, k, ms).Ok?
    ensures SIsMember(SAdd(ks, k, ms).value.after, k, m) == Ok(m in ms || SIsMember(ks, k, m) == Ok(true))
    ensures SMembers(SAdd(ks, k, ms).value.after, k) == Ok(SMembers(ks, k).value + ms)
  {
  }

  /** After SREM, SISMEMBER is false for the removed member, unchanged for
      every other one, and SMEMBERS reads the old set without it. */
  lemma SRemThenRead(ks: Keyspace, k: string, m: string, other: string)
    requires SRem(ks, k, m).Ok?
    ensures SIsMember(SRem(ks, k, m).value.after, k, m) == Ok(false)
    ensures other != m ==> SIsMember(SRem(ks, k, m).value.after, k, other) == SIsMember(ks, k, other)
    ensures SMembers(SRem(ks, k, m).value.after, k) == Ok(SMembers(ks, k).value - {m})
  {
    var after := SRem(ks, k, m).value.after;
    if k in ks && m in Members(ks, k) {
      if Members(ks, k) == {m} {
        assert k !in after;
        assert Members(ks, k) - {m} == {};
      } else {
        assert after[k] == SetValue(Members(ks, k) - {m});
      }
    } else {
      assert Members(ks, k) - {m} == Members(ks, k);
    }
  }

  /** After DEL, EXISTS is false for the key and unchanged for every other
      key; the reply says whether EXISTS held before. */
  lemma DelThenExists(ks: Keyspace, k: string, other: string)
    ensures !Exists(Del(ks, k).after, k)
    ensures Del(ks, k).reply == (if Exists(ks, k) then 1 else 0)
    ensures other != k ==> Exists(Del(ks, k).after, other) == Exists(ks, other)
  {
  }
}

=== FILE: text.dfy ===
/** The string operations the handlers rely on: JavaScript's
    `String.prototype.split` with a one-character separator, indexing into
    its result, and `Number.prototype.toString` for integers. */
module Text {
  import opened Wrappers

  /** `s.split(sep)` for a one-character separator: the pieces between
      consecutive separators, empty pieces included. */
  function Split(s: string, sep: char): (parts: seq<string>)
    ensures |parts| >= 1
    ensures forall i | 0 <= i < |parts| :: sep !in parts[i]
    decreases |s|
  {
    if |s| == 0 then [""]
    else
      var rest := Split(s[1..], sep);
      if s[0] == sep then [""] + rest
      else [[s[0]] + rest[0]] + rest[1..]
  }

  /** `parts.join(sep)`, the inverse of `Split`. */
  function Join(parts: seq<string>, sep: char): string
    requires |parts| >= 1
    decreases |parts|
  {
    if |parts| == 1 then parts[0] else parts[0] + [sep] + Join(parts[1..], sep)
  }

  /** `s.split(sep)[i]`: `None` models JavaScript's `undefined` for an index
      past the last piece. */
  function Field(s: string, sep: char, i: nat): (r: Option<string>)
    ensures r.Some? <==> i < |Split(s, sep)|
    ensures r.Some? ==> sep !in r.value
  {
    var parts := Split(s, sep);
    if i < |parts| then Some(parts[i]) else None
  }

  /** Joining the pieces of a split gives back the original string. */
  lemma {:induction false} JoinSplit(s: string, sep: char)
    ensures Join(Split(s, sep), sep) == s
    decreases |s|
  {
    if |s| > 0 {
      var rest := Split(s[1..], sep);
      JoinSplit(s[1..], sep);
      if s[0] == sep {
        assert ([""] + rest)[1..] == rest;
      } else if |rest| > 1 {
        assert Join(rest, sep) == rest[0] + [sep] + Join(rest[1..], sep);
        assert ([[s[0]] + rest[0]] + rest[1..])[1..] == rest[1..];
      }
    }
  }

  /** A string without the separator splits into itself alone. */
  lemma {:induction false} SplitWithoutSeparator(a: string, sep: char)
    requires sep !in a
    ensures Split(a, sep) == [a]
    decreases |a|
  {
    if |a| > 0 {
      SplitWithoutSeparator(a[1..], sep);
      assert [a[0]] + a[1..] == a;
    }
  }

  /** A separator-free head is split off as the first piece. */
  lemma {:induction false} SplitAfterHead(a: string, sep: char, b: string)
    requires sep !in a
    ensures Split(a + [sep] + b, sep) == [a] + Split(b, sep)
    decreases |a|
  {
    var s := a + [sep] + b;
    if |a| == 0 {
      assert s[1..] == b;
    } else {
      assert s[1..] == a[1..] + [sep] + b;
      SplitAfterHead(a[1..], sep, b);
      assert [a[0]] + a[1..] == a;
    }
  }

  /** Splitting a join of separator-free pieces gives back the pieces, so
      `Split` and `Join` are inverse bijections. */
  lemma {:induction false} SplitJoin(parts: seq<string>, sep: char)
    requires |parts| >= 1
    requires forall i | 0 <= i < |parts| :: sep !in parts[i]
    ensures Split(Join(parts, sep), sep) == parts
    decreases |parts|
  {
    if |parts| == 1 {
      SplitWithoutSeparator(parts[0], sep);
    } else {
      SplitJoin(parts[1..], sep);
      SplitAfterHead(parts[0], sep, Join(parts[1..], sep));
      assert [parts[0]] + parts[1..] == parts;
    }
  }

  /** The second piece of `head + sep + tail` is the part of `tail` before
      its first separator. */
  lemma SecondField(head: string, sep: char, tail: string)
    requires sep !in head
    ensures Field(head + [sep] + tail, sep, 1) == Some(Split(tail, sep)[0])
  {
    SplitAfterHead(head, sep, tail);
  }

  // ---------------------------------------------------------------------
  // Integer to decimal string

  predicate IsDigit(c: char) {
    '0' <= c <= '9'
  }

  predicate AllDigits(s: string) {
    forall i | 0 <= i < |s| :: IsDigit(s[i])
  }

  function DigitChar(d: nat): (c: char)
    requires d < 10
    ensures IsDigit(c)
  {
    (48 + d) as char
  }

  function DigitValue(c: char): nat
    requires IsDigit(c)
  {
    c as int - 48
  }

  /** Decimal digits of `n`, most significant first, without leading zeros. */
  function NatToDecimal(n: nat): (s: string)
    ensures |s| >= 1 && AllDigits(s)
    ensures s[0] == '0' ==> s == "0"
    decreases n
  {
    if n < 10 then [DigitChar(n)] else NatToDecimal(n / 10) + [DigitChar(n % 10)]
  }

  /** The value of a string of decimal digits. */
  function DecimalValue(s: string): nat
    requires AllDigits(s)
    decreases |s|
  {
    if |s| == 0 then 0 else DecimalValue(s[..|s| - 1]) * 10 + DigitValue(s[|s| - 1])
  }

  /** `n.toString()` for an integer-valued JavaScript number of magnitude at most 2^53;
      beyond that JavaScript prints the shortest round-trip digits padded with zeros. */
  function IntToString(n: int): string {
    if n < 0 then "-" + NatToDecimal(-n) else NatToDecimal(n)
  }

  /** Reads back an optionally signed decimal integer. */
  function ParseInt(s: string): Option<int> {
    if |s| >= 2 && s[0] == '-' && AllDigits(s[1..]) then Some(0 - DecimalValue(s[1..]) as int)
    else if |s| >= 1 && AllDigits(s) then Some(DecimalValue(s))
    else None
  }

  lemma {:induction false} DecimalRoundTrip(n: nat)
    ensures DecimalValue(NatToDecimal(n)) == n
    decreases n
  {
    if n >= 10 {
      DecimalRoundTrip(n / 10);
      var s := NatToDecimal(n);
      assert s[..|s| - 1] == NatToDecimal(n / 10);
    }
  }

  /** The decimal rendering of an integer reads back as the same integer, so
      distinct integers render as distinct strings. */
  lemma IntToStringRoundTrip(n: int)
    ensures ParseInt(IntToString(n)) == Some(n)
  {
    if n < 0 {
      DecimalRoundTrip(-n);
      assert IntToString(n)[1..] == NatToDecimal(-n);
    } else {
      DecimalRoundTrip(n);
    }
  }
}

=== FILE: wrappers.dfy ===
/** Optional values and results with an error, used for the JavaScript
    `undefined` and for the replies of the key-value store. */
module Wrappers {

  datatype Option<+T> = None | Some(value: T)

  datatype Result<+T, +E> = Ok(value: T) | Err(error: E)
}
